=== FILE: README.md ===
# Retail analytics pipeline, modelled in Dafny

This project models the logic of a retail data-mining pipeline. The pipeline has five stages:

- **Star schema** (`create_tables.dfy`, module `StarSchema`). The initialiser of the SQLite warehouse: the four table definitions CustomerDim, ProductDim, TimeDim and SalesFact, the three foreign keys of SalesFact, CREATE TABLE IF NOT EXISTS, SQLite's AUTOINCREMENT keys and its foreign-key check on INSERT. A `Connection` class holds the file as committed, the connection's view of it, the foreign-key pragma, whether a transaction is open and the statements executed. As the Python driver does, it opens a transaction implicitly before an INSERT that SQLite could prepare, and at no other statement, so each CREATE TABLE of the initialiser is committed as soon as it runs. An INSERT that fails while it is prepared (no such table or column, a foreign key that does not resolve) opens none. SQLite reports such prepare errors before any error found while the statement runs. `CreateTables` runs the initialiser's fixed statement sequence on it.
- **RFM features** (`rfm_feature_engineering.dfy`, module `RfmFeatureEngineering`). The inner join of SalesFact with TimeDim on `time_id`, then, per customer: recency (the snapshot day 2011-12-10 minus the latest date), frequency (distinct invoice numbers) and monetary value (sum of sales amounts). Dates are day numbers of the proleptic Gregorian calendar.
- **Clustering** (`rfm_clustering.dfy`, module `RfmClustering`). The control logic around k-means:
  - the fixed choice K = 4;
  - the fewer-than-ten-rows guard and its placeholder table;
  - clipping at 1 before the logarithm;
  - the SSE sweep over K = 1..10;
  - attaching the labels to the feature rows.

  K-means, the logarithm and the scaler are one oracle function whose labels for k clusters lie in [0, k).
- **Segment profiling** (`rfm_segment_profiling.dfy`, module `RfmSegmentProfiling`). Cluster labels read as decimal text, one profile of means per label, and the fixed table naming labels 0, 1 and 2. Clustering produces four clusters, so label 3 gets no name, and `FourthClusterUnnamed` shows that this can happen.
- **Association rules** (`association_rules.dfy`, module `AssociationRules`). Reading transactions from file lines with Python's `strip` and `split(',')`, with a split/join round trip. Then showing itemsets joined by `", "`, picking the five rules of highest lift, and choosing the first of them for discussion. Apriori and rule generation are two oracles; rule generation failing on an empty set of frequent itemsets is modelled as its own outcome.

`wrappers.dfy` holds the `Option` type. A missing input file is a boolean or `None` input. It gives a `None` result in the feature and profiling stages, a `MissingInput` result in the clustering stage and a `FileNotFound` outcome in the association stage.

## Model

| member | source | states |
|---|---|---|
| StarSchema.DeclaredSchemas | create_tables.py:15-69 | every declared table has an INTEGER AUTOINCREMENT key as first column and foreign keys only on declared non-key columns; SalesFact's product_id, customer_id, time_id reference the keys of ProductDim, CustomerDim, TimeDim |
| StarSchema.CreateIfNotExists | create_tables.py:16 | the catalog afterwards has exactly the old table names plus the created one |
| StarSchema.CreateIfNotExistsEffect | create_tables.py:16 | CREATE TABLE IF NOT EXISTS adds the name, keeps an existing table as it is, changes no other table, and creates an absent one empty |
| StarSchema.CreateStarSchema | create_tables.py:15-69 | the four CREATEs keep every existing table name and add the four star tables |
| StarSchema.CreateStarSchemaTables | create_tables.py:15-69 | after initialisation the file holds exactly its earlier tables plus the four star tables; earlier tables are unchanged, new ones are empty with their declared definition |
| StarSchema.CreateStarSchemaIdempotent | create_tables.py:15-69 | running the initialiser twice gives the same catalog as running it once |
| StarSchema.CreateStarSchemaResolves | create_tables.py:65-67 | if the file's foreign keys resolve and existing star tables have their declared definitions, every foreign key resolves after initialisation too |
| StarSchema.StarTableSchema | create_tables.py:15-69 | after initialisation each star table carries its declared definition, given that existing ones already did |
| StarSchema.DeclaredForeignKeys | create_tables.py:65-67 | each declared foreign key names a declared table and that table's key column |
| StarSchema.FirstMismatch | create_tables.py:65-67 | a mismatch is reported exactly when some foreign key's parent table is missing or not keyed by the named column, and it names such a key |
| StarSchema.FirstViolation | create_tables.py:65-67 | a violation is reported exactly when some foreign key's value is neither NULL nor a key of its parent table, and the key it names is one whose value has no parent row |
| StarSchema.ForeignKeyCheck | create_tables.py:65-67 | the two passes accept a row exactly when every foreign key is satisfied (parent present, keyed by the named column, and the value NULL or a parent key) |
| StarSchema.Insert | create_tables.py:17 | a successful insert changes only its own table: the definition is kept, exactly one row with the given key is appended, and the counter becomes the larger of the old counter and that key |
| StarSchema.InsertKeepsTableValid | create_tables.py:17 | inserts keep keys pairwise distinct and not above the AUTOINCREMENT counter, and the counter never decreases |
| StarSchema.AutoKeyIsFresh | create_tables.py:17 | a generated key is the counter plus one, larger than every existing key, and becomes the counter |
| StarSchema.SuccessiveAutoKeysIncrease | create_tables.py:17 | two successive AUTOINCREMENT inserts into a table get strictly increasing keys |
| StarSchema.InsertedRowResolves | create_tables.py:65-67 | with enforcement on, every foreign key of an inserted row is satisfied |
| StarSchema.DanglingFactRejected | create_tables.py:65-67 | with enforcement on, a SalesFact row whose product, customer or time key has no parent row is rejected |
| StarSchema.Connection.constructor | create_tables.py:8 | a new connection sees the file, has foreign keys off and has executed nothing |
| StarSchema.Connection.EnableForeignKeys | create_tables.py:12 | the pragma turns enforcement on unless a transaction is open, where SQLite ignores it, and changes no table |
| StarSchema.Connection.CreateTableIfNotExists | create_tables.py:15-26 | the connection's view becomes CreateIfNotExists of the old view; outside a transaction the file becomes that view at once, inside one it waits for the commit |
| StarSchema.Connection.InsertRow | create_tables.py:65-67 | a transaction is open afterwards unless none was open and the statement failed while being prepared; the view becomes Insert's new catalog and the key is returned, or the view is unchanged and no key is returned when the insert is rejected; the file is untouched |
| StarSchema.Connection.Commit | create_tables.py:72 | the committed file becomes the connection's view and no transaction is open |
| StarSchema.Connection.Close | create_tables.py:73 | closing rolls back uncommitted changes, drops the pragma, and leaves the connection closed |
| StarSchema.CreateStarTables | create_tables.py:15-69 | on a connection with no open transaction, the four CREATEs in order leave the view and the file both equal to CreateStarSchema of the old view |
| StarSchema.CreateTables | create_tables.py:3-73 | the committed file is the four IF NOT EXISTS creations applied to the old file, and the statements run are the pragma, the four CREATEs in order, commit, close |
| RfmFeatureEngineering.YearLength | rfm_feature_engineering.py:42 | a year has 366 days if it is a leap year and 365 otherwise, both between year starts and within the months |
| RfmFeatureEngineering.LeapDays | rfm_feature_engineering.py:42 | consecutive year starts differ by 366 or 365 days according to the leap-year rule |
| RfmFeatureEngineering.MonthStarts | rfm_feature_engineering.py:42 | December starts 306 days plus February's length after January 1 |
| RfmFeatureEngineering.NextDateIsNextDay | rfm_feature_engineering.py:42 | the day after a valid date is valid and has the next day number, across month and year ends, so differences of day numbers count days |
| RfmFeatureEngineering.Matches | rfm_feature_engineering.py:33-34 | the rows a fact row contributes to the join are exactly its pairings with TimeDim rows of equal time_id |
| RfmFeatureEngineering.JoinMembership | rfm_feature_engineering.py:27-35 | a row is in the join exactly when it combines a fact row with a TimeDim row of the same time_id |
| RfmFeatureEngineering.Matched | rfm_feature_engineering.py:33-34 | holds exactly the fact rows that have a TimeDim row |
| RfmFeatureEngineering.JoinDropsUnmatched | rfm_feature_engineering.py:33-34 | fact rows with no TimeDim row do not affect the join |
| RfmFeatureEngineering.JoinSize | rfm_feature_engineering.py:33-34 | with time_id unique in TimeDim, the join has one row per matched fact row |
| RfmFeatureEngineering.MatchesSize | rfm_feature_engineering.py:33-34 | with unique time_ids, a fact row joins with one TimeDim row if it has one and with none otherwise |
| RfmFeatureEngineering.Join | rfm_feature_engineering.py:27-35 | every joined row comes from some fact row's matches with TimeDim |
| RfmFeatureEngineering.RowsOf | rfm_feature_engineering.py:41 | a customer's group holds exactly the rows with that customer_id |
| RfmFeatureEngineering.LatestDate | rfm_feature_engineering.py:42 | the result is the date of one of the customer's rows and no row of the customer is later |
| RfmFeatureEngineering.Invoices | rfm_feature_engineering.py:43 | a customer's set of distinct invoice numbers is empty exactly when the customer has no joined row |
| RfmFeatureEngineering.MonetaryIsGroupSum | rfm_feature_engineering.py:41-44 | the one-pass monetary value equals the plain sum of sales amounts over the customer's group |
| RfmFeatureEngineering.RfmTable | rfm_feature_engineering.py:41-45 | one entry per distinct customer_id of the joined rows |
| RfmFeatureEngineering.CalculateRfm | rfm_feature_engineering.py:16-45 | nothing when the database file is missing; otherwise the features of the joined rows at the 2011-12-10 snapshot, one entry for each customer with a joined fact row and for no other |
| RfmFeatureEngineering.RecencyIsDaysSinceLatest | rfm_feature_engineering.py:42 | snapshot minus recency is the date of one of the customer's rows, and no row of the customer is later |
| RfmFeatureEngineering.RecencyAtLeastOne | rfm_feature_engineering.py:24-42 | when every date is before the snapshot, every recency is at least 1 |
| RfmFeatureEngineering.FrequencyCountsInvoices | rfm_feature_engineering.py:43 | frequency is the number of distinct invoice numbers on the customer's rows, each of which is counted |
| RfmFeatureEngineering.InvoicesBounded | rfm_feature_engineering.py:43 | a customer has no more distinct invoices than rows |
| RfmFeatureEngineering.InvoiceNumbersBounded | rfm_feature_engineering.py:43 | a list of rows has at most as many distinct invoice numbers as rows |
| RfmFeatureEngineering.FrequencyBounds | rfm_feature_engineering.py:43 | 1 <= frequency <= the customer's number of rows |
| RfmFeatureEngineering.MonetaryPositive | rfm_feature_engineering.py:44 | with positive amounts, every customer's monetary value is positive |
| RfmFeatureEngineering.MonetaryNonNegative | rfm_feature_engineering.py:44 | with non-negative amounts, monetary values are non-negative |
| RfmFeatureEngineering.MonetaryAppend | rfm_feature_engineering.py:44 | the sum over two pieces of the rows is the sum of the two sums |
| RfmFeatureEngineering.MonetaryRemoveAt | rfm_feature_engineering.py:44 | the sum is one row's share plus the sum over the other rows |
| RfmFeatureEngineering.MonetaryPermutation | rfm_feature_engineering.py:44 | reordering the rows does not change the sum |
| RfmFeatureEngineering.RfmPermutationInvariant | rfm_feature_engineering.py:41-45 | reordering the joined rows changes no customer's (recency, frequency, monetary) |
| RfmFeatureEngineering.SameRowsSameDateAndInvoices | rfm_feature_engineering.py:41-43 | two row lists with the same rows give a customer the same latest date and the same invoice set |
| RfmFeatureEngineering.UnmatchedCustomerAbsent | rfm_feature_engineering.py:31-35 | a customer whose fact rows all lack a TimeDim row gets no features |
| RfmFeatureEngineering.SingleInvoiceExample | rfm_feature_engineering.py:24-45 | one invoice of amount 100 dated 2011-12-08 gives recency 2, frequency 1, monetary 100 |
| RfmClustering.EstimateOptimalK | rfm_clustering.py:14-26 | the estimate is 4 for every SSE map, and 4 is one of the swept candidates |
| RfmClustering.Clip | rfm_clustering.py:59 | the result is at least 1, equals the value when the value is at least 1, and is 1 otherwise |
| RfmClustering.ClipMonotone | rfm_clustering.py:59 | clipping keeps the order of values |
| RfmClustering.Points | rfm_clustering.py:54-59 | one clipped point per row, in order, with every coordinate at least 1 |
| RfmClustering.PlaceholderShape | rfm_clustering.py:47-48 | the placeholder has customers 1, 2, 3 with pairwise distinct labels in [0, 3) |
| RfmClustering.PerformClustering | rfm_clustering.py:29-101 | missing file: nothing; fewer than 10 rows: the placeholder; otherwise an SSE entry for exactly K = 1..10 holding that fit's inertia, K = 4, and the input rows in order with their values unchanged and the K = 4 labels, all in [0, 4) |
| RfmSegmentProfiling.NaturalText | rfm_segment_profiling.py:21 | the decimal text of a number has at least one digit, and at least two from 10 up |
| RfmSegmentProfiling.DecimalText | rfm_segment_profiling.py:21 | the text is one character exactly for 0..9, and then it is that digit |
| RfmSegmentProfiling.ClusterSegment | rfm_segment_profiling.py:45-52 | a label is named exactly when it is 0, 1 or 2: 2 is 01_Champions, 1 is 02_Loyal_Customers, 0 is 03_Losing_Customers |
| RfmSegmentProfiling.SegmentName | rfm_segment_profiling.py:45-52 | a label text has a name exactly when it is "0", "1" or "2": "2" is 01_Champions, "1" is 02_Loyal_Customers and "0" is 03_Losing_Customers |
| RfmSegmentProfiling.FourthClusterUnnamed | rfm_segment_profiling.py:45-52 | label 3 of the fourth cluster has no name, and some admissible oracle gives label 3 on every large enough input |
| RfmSegmentProfiling.AsText | rfm_segment_profiling.py:21 | each row keeps its values and gets its label as decimal text |
| RfmSegmentProfiling.Group | rfm_segment_profiling.py:25 | a cluster's group holds every row with that label, with its multiplicity, and no other |
| RfmSegmentProfiling.Values | rfm_segment_profiling.py:25 | the chosen metric of each row of a group, in order |
| RfmSegmentProfiling.GroupMean | rfm_segment_profiling.py:25 | a cluster's mean of a metric lies between that metric on some row of the cluster and on another |
| RfmSegmentProfiling.Profiles | rfm_segment_profiling.py:25 | one profile per distinct label |
| RfmSegmentProfiling.SumBounds | rfm_segment_profiling.py:25 | n values between lo and hi sum to between n*lo and n*hi |
| RfmSegmentProfiling.MeanWithinBounds | rfm_segment_profiling.py:25 | a mean lies between any lower and upper bound of its values |
| RfmSegmentProfiling.ProfileWithinGroupRange | rfm_segment_profiling.py:25 | each profile mean lies within the range of that metric over its cluster |
| RfmSegmentProfiling.EachRowInOneGroup | rfm_segment_profiling.py:25 | every row's label is profiled, and the row is in a group exactly when the group is its own label's |
| RfmSegmentProfiling.SegmentTable | rfm_segment_profiling.py:52 | every row is kept in order with its values unchanged, and its segment name is the one ClusterSegment gives its label: present exactly when the label is 0, 1 or 2 |
| RfmSegmentProfiling.ProfileSegments | rfm_segment_profiling.py:13-99 | nothing when the file is missing; otherwise one profile per distinct label text, the profiles being those of the rows with text labels, and the segment table of the input rows |
| AssociationRules.TrimStart | association_rules.py:20 | removes only leading white space, and stops at the first other character |
| AssociationRules.TrimEnd | association_rules.py:20 | removes only trailing white space, and stops at the last other character |
| AssociationRules.Strip | association_rules.py:20 | the stripped line is empty exactly when the line is all white space, and otherwise starts and ends with a non-space |
| AssociationRules.Split | association_rules.py:20 | n separators give n+1 pieces, none holding the separator |
| AssociationRules.JoinSplit | association_rules.py:20 | joining the pieces of a split with the separator gives back the text |
| AssociationRules.SplitJoin | association_rules.py:20 | splitting a join of separator-free pieces gives back the pieces |
| AssociationRules.JoinShorter | association_rules.py:20 | a join starts with the first character of its first piece, followed by the join with that character removed |
| AssociationRules.JoinCons | association_rules.py:20 | moving the first character of the first piece out of a join gives that character followed by the rest of the join |
| AssociationRules.ItemsOfLinesConcat | association_rules.py:20 | the line-by-line correspondence of transactions and lines is kept by concatenation |
| AssociationRules.FirstLineFollows | association_rules.py:20 | a line gives one transaction, its stripped text split at commas, when it is not blank, and none when it is |
| AssociationRules.Transactions | association_rules.py:20 | a file gives at most one transaction per line |
| AssociationRules.TransactionsFollowLines | association_rules.py:20 | there is one transaction per non-blank line, in file order, each the stripped line split at commas |
| AssociationRules.TransactionRoundTrip | association_rules.py:20 | joining a transaction's items with "," gives back its stripped line |
| AssociationRules.TransactionsAppend | association_rules.py:20 | the transactions of two pieces of a file are those of each piece, in order |
| AssociationRules.BlankLineIgnored | association_rules.py:20 | a blank or white-space-only line adds no transaction |
| AssociationRules.ShowItemset | association_rules.py:47-48 | an empty itemset is shown as empty text, and any other one starts with its first item |
| AssociationRules.ShowItemsetAppend | association_rules.py:47-48 | an itemset is shown as its items separated by ", " |
| AssociationRules.ShowRules | association_rules.py:44-48 | each rule has both itemsets shown as text and its support, confidence and lift kept |
| AssociationRules.DescendingCons | association_rules.py:50 | a rule with at least the head's lift can go in front of a sorted list |
| AssociationRules.InsertByLift | association_rules.py:50 | inserting into a list sorted by descending lift keeps it sorted and adds exactly that rule |
| AssociationRules.SortByLift | association_rules.py:50 | the result is sorted by descending lift and is a permutation of the rules |
| AssociationRules.SortedPrefix | association_rules.py:50 | a prefix of a sorted permutation is sorted and drawn from the rules, and no rule outside it has higher lift than one inside |
| AssociationRules.TopRules | association_rules.py:50 | min(5, n) rules, by descending lift, drawn from the input, and no rule left out has a higher lift than one kept |
| AssociationRules.TopRule | association_rules.py:56-57 | a rule is chosen exactly when the list is not empty, and on a list sorted by descending lift it is one with the highest lift |
| AssociationRules.TopRuleHasMaximalLift | association_rules.py:56-57 | a rule is discussed exactly when there are rules, and it is one of them with maximal lift |
| AssociationRules.RunAssociationMining | association_rules.py:9-66 | the file-not-found outcome exactly when the file is missing; the failure of rule generation exactly when the file exists and no itemset of its transactions is frequent; otherwise the transactions of its lines; the shown rules are at most five generated ones, by descending lift, and no generated rule left out has a higher lift than a shown one; the discussed rule is the first shown, and no generated rule has a higher lift |

## Left out

- The ETL that fills the warehouse, the OLAP report queries and the classification stage are not part of this model. The RFM stage takes SalesFact and TimeDim rows as input.
- K-means, StandardScaler and `np.log` are one oracle function. Only the clipping before the logarithm is modelled. The comment at rfm_clustering.py:58 speaks of adding 1, but the code clips at 1, and the model follows the code.
- The oracle is only required to give labels in [0, k) when 1 <= k <= n. The library rejects more clusters than points, and the ten-row guard makes every swept K legal.
- The scaled-features file (rfm_clustering.py:64-65) and the elbow plot are not modelled.
- Apriori and rule generation, with their support and confidence thresholds, are oracles: one from transactions to frequent itemsets, one from itemsets to rules. Only their failure on an empty set of itemsets is modelled. The item order inside a frozenset, and so inside a shown itemset, is whatever the oracle gives.
- AssociationRules.TopRules: the model sorts stably, so among rules of equal lift it keeps those that come first. The library's default sort is not stable and may keep others, so the contract does not state which tied rules are kept; every property it states holds for any order of ties.
- Rounding of profile means for display, markdown printing, plots and CSV reading and writing are not modelled. A missing file is a boolean or `None` input.
- Dates are day numbers. Parsing the TimeDim date text is not modelled, and neither are timedeltas beyond day differences.
- NULL fact columns are not modelled for the RFM stage. In the star schema, only the key and foreign-key columns are checked; SQLite's type affinity and the coercion of text to integer keys are not.
- SQLite's 64-bit key limit is not modelled. Keys are unbounded integers.
- The order of rows in the RFM output is not modelled. The output is a map by customer. The join's row order is not fixed either, and RfmPermutationInvariant shows the features do not depend on it.
- Splitting a file into lines, including universal newline handling, is not modelled. The stage takes the lines as given, with or without their line ends.
- In-place column assignments on data frames are modelled as values. This covers the Cluster column (rfm_clustering.py:98), the label text and segment names (rfm_segment_profiling.py:21,52) and the shown itemsets (association_rules.py:47-48).
- Statements on a closed connection are not modelled. Every connection method requires an open connection.
- StarSchema.CreateTables: the committed file is stated. That it includes the four tables and leaves existing ones alone follows from CreateStarSchemaTables.
- StarSchema.CreateStarSchemaTables: table names are compared exactly, while SQLite compares them without regard to ASCII case. This holds for the whole catalog model: CreateIfNotExists, CreateIfNotExistsEffect, CreateStarSchema, Insert, Connection.CreateTableIfNotExists, CreateStarTables and CreateTables key tables by their exact name too. On a file that already holds, say, `customerdim`, the initialiser adds no CustomerDim table, but the model adds one next to it.
- Floating point is not modelled. Sales amounts and means are exact reals, while pandas adds and divides in float64, where the result depends on the order of the additions and can fall just outside the range of the values. The following properties therefore hold of the model, and of the program only up to rounding.
- RfmFeatureEngineering.MonetaryPermutation: holds for exact sums. A float64 sum can differ by rounding when the rows come in a different order.
- RfmFeatureEngineering.RfmPermutationInvariant: recency and frequency are exact. Monetary is exact only up to the rounding just described.
- RfmFeatureEngineering.MonetaryAppend: holds for exact sums, and only up to rounding in float64.
- RfmSegmentProfiling.MeanWithinBounds: holds for exact means. A float64 mean can lie just outside its bounds; three values 0.1 have the mean 0.10000000000000002.
- RfmSegmentProfiling.ProfileWithinGroupRange: exact means only, as for MeanWithinBounds.
- RfmSegmentProfiling.GroupMean: exact means only, as for MeanWithinBounds.

=== FILE: association_rules.dfy ===
/**
  Association-rule mining, the part around the library: reading transactions from the
  lines of a text file, showing itemsets as text, and picking the five rules of highest
  lift and the one to discuss. Apriori and rule generation are an oracle.
 */
module AssociationRules {
  import opened Wrappers

  // ---------------------------------------------------------------------------
  // strip, split and join
  // ---------------------------------------------------------------------------

  /** The characters Python's str.strip() removes: those str.isspace() accepts. */
  predicate IsSpace(c: char) {
    || c == '\t' || c == '\n' || c == '\U{000B}' || c == '\U{000C}' || c == '\r'
    || ('\U{001C}' <= c <= '\U{001F}') || c == ' ' || c == '\U{0085}' || c == '\U{00A0}'
    || c == '\U{1680}' || ('\U{2000}' <= c <= '\U{200A}') || c == '\U{2028}' || c == '\U{2029}'
    || c == '\U{202F}' || c == '\U{205F}' || c == '\U{3000}'
  }

  function TrimStart(s: string): (r: string)
    ensures |r| <= |s| && r == s[|s| - |r|..]
    ensures forall i :: 0 <= i < |s| - |r| ==> IsSpace(s[i])
    ensures r != [] ==> !IsSpace(r[0])
  {
    if s != [] && IsSpace(s[0]) then TrimStart(s[1..]) else s
  }

  function TrimEnd(s: string): (r: string)
    ensures |r| <= |s| && r == s[..|r|]
    ensures forall i :: |r| <= i < |s| ==> IsSpace(s[i])
    ensures r != [] ==> !IsSpace(r[|r| - 1])
  {
    if s != [] && IsSpace(s[|s| - 1]) then TrimEnd(s[..|s| - 1]) else s
  }

  /** str.strip(): the line without its leading and trailing white space. It is empty
      exactly when the line is blank. */
  function Strip(s: string): (r: string)
    ensures r == [] <==> forall i :: 0 <= i < |s| ==> IsSpace(s[i])
    ensures r != [] ==> !IsSpace(r[0]) && !IsSpace(r[|r| - 1])
  {
    var t := TrimStart(s);
    if t == [] then t
    else
      var r := TrimEnd(t);
      assert r != [] by { assert !IsSpace(t[0]); }
      assert r[0] == t[0];
      r
  }

  function Count(s: string, c: char): nat {
    if s == [] then 0 else (if s[0] == c then 1 else 0) + Count(s[1..], c)
  }

  /** str.split(sep) with a one-character separator: one piece more than there are
      separators; pieces keep inner spaces and may be empty. */
  function Split(s: string, sep: char): (parts: seq<string>)
    ensures |parts| == Count(s, sep) + 1
    ensures forall p :: p in parts ==> sep !in p
  {
    if s == [] then [""]
    else
      var rest := Split(s[1..], sep);
      if s[0] == sep then [""] + rest else [[s[0]] + rest[0]] + rest[1..]
  }

  /** sep.join(parts). */
  function Join(parts: seq<string>, sep: string): string {
    if |parts| == 0 then ""
    else if |parts| == 1 then parts[0]
    else parts[0] + sep + Join(parts[1..], sep)
  }

  /** Joining the pieces of a split with the separator gives back the text. */
  lemma {:induction false} JoinSplit(s: string, sep: char)
    ensures Join(Split(s, sep), [sep]) == s
  {
    if s != [] {
      var rest := Split(s[1..], sep);
      JoinSplit(s[1..], sep);
      if s[0] == sep {
        assert Split(s, sep) == [""] + rest;
        assert s == [sep] + s[1..];
      } else {
        var parts := Split(s, sep);
        assert parts == [[s[0]] + rest[0]] + rest[1..];
        if |rest| == 1 {
          assert s == [s[0]] + s[1..];
        } else {
          assert parts[1..] == rest[1..];
          assert Join(rest, [sep]) == rest[0] + [sep] + Join(rest[1..], [sep]);
          assert s == [s[0]] + s[1..];
        }
      }
    }
  }

  /** Splitting a join gives back the pieces, as long as none holds the separator. */
  lemma {:induction false} SplitJoin(parts: seq<string>, sep: char)
    requires |parts| > 0
    requires forall p :: p in parts ==> sep !in p
    ensures Split(Join(parts, [sep]), sep) == parts
    decreases |parts|, |parts[0]|
  {
    var p := parts[0];
    var s := Join(parts, [sep]);
    if p == [] {
      if |parts| > 1 {
        assert parts[1..][0] == parts[1];
        SplitJoin(parts[1..], sep);
        assert s == [sep] + Join(parts[1..], [sep]);
        assert s[1..] == Join(parts[1..], [sep]);
        assert s[0] == sep;
      }
    } else {
      var shorter := [p[1..]] + parts[1..];
      assert p[0] != sep by { assert p[0] in p; }
      assert forall q :: q in shorter ==> sep !in q by {
        assert forall c :: c in p[1..] ==> c in p;
        assert forall q :: q in parts[1..] ==> q in parts;
      }
      SplitJoin(shorter, sep);
      JoinShorter(parts, sep);
      assert shorter[1..] == parts[1..];
      assert [p[0]] + shorter[0] == p;
    }
  }

  lemma JoinShorter(parts: seq<string>, sep: char)
    requires |parts| > 0 && parts[0] != []
    ensures Join(parts, [sep]) == [parts[0][0]] + Join([parts[0][1..]] + parts[1..], [sep])
  {
    var p := parts[0];
    assert p == [p[0]] + p[1..];
    assert parts == [p] + parts[1..];
    JoinCons(p[0], p[1..], parts[1..], sep);
  }

  /** Moving the first character of the first piece out of a join. */
  lemma JoinCons(x: char, q: string, tail: seq<string>, sep: char)
    ensures Join([[x] + q] + tail, [sep]) == [x] + Join([q] + tail, [sep])
  {
    var a := [[x] + q] + tail;
    var b := [q] + tail;
    assert a[0] == [x] + q && a[1..] == tail && |a| == |b|;
    assert b[0] == q && b[1..] == tail;
    if tail != [] {
      var rest := Join(tail, [sep]);
      assert Join(a, [sep]) == ([x] + q) + [sep] + rest;
      assert Join(b, [sep]) == q + [sep] + rest;
    }
  }

  // ---------------------------------------------------------------------------
  // Transactions
  // ---------------------------------------------------------------------------

  /** What one line contributes: its comma-separated items once stripped, unless it
      is blank. */
  function LineTransaction(line: string): seq<seq<string>> {
    var t := Strip(line);
    if t != "" then [Split(t, ',')] else []
  }

  /** [line.strip().split(',') for line in lines if line.strip()] */
  function Transactions(lines: seq<string>): (ts: seq<seq<string>>)
    ensures |ts| <= |lines|
  {
    if lines == [] then [] else LineTransaction(lines[0]) + Transactions(lines[1..])
  }

  function LineIfNonBlank(line: string): seq<string> {
    if Strip(line) != "" then [line] else []
  }

  /** The lines that are not blank, in file order. */
  function NonBlankLines(lines: seq<string>): seq<string> {
    if lines == [] then [] else LineIfNonBlank(lines[0]) + NonBlankLines(lines[1..])
  }

  /** ts holds, position by position, the comma-separated items of the stripped lines
      of ns, none of which is blank. */
  predicate ItemsOfLines(ts: seq<seq<string>>, ns: seq<string>) {
    |ts| == |ns| && forall i :: 0 <= i < |ns| ==> ItemsOfLine(ts[i], ns[i])
  }

  predicate ItemsOfLine(items: seq<string>, line: string) {
    Strip(line) != "" && items == Split(Strip(line), ',')
  }

  lemma ItemsOfLinesConcat(t0: seq<seq<string>>, n0: seq<string>, t1: seq<seq<string>>, n1: seq<string>)
    requires ItemsOfLines(t0, n0) && ItemsOfLines(t1, n1)
    ensures ItemsOfLines(t0 + t1, n0 + n1)
  {
    forall i | 0 <= i < |n0 + n1|
      ensures ItemsOfLine((t0 + t1)[i], (n0 + n1)[i])
    {
      if i < |n0| {
        assert ItemsOfLine(t0[i], n0[i]);
        assert (n0 + n1)[i] == n0[i] && (t0 + t1)[i] == t0[i];
      } else {
        var k := i - |n0|;
        assert ItemsOfLine(t1[k], n1[k]);
        assert (n0 + n1)[i] == n1[k] && (t0 + t1)[i] == t1[k];
      }
    }
  }

  /** One transaction per non-blank line, in file order: the stripped line split at
      commas. */
  lemma {:induction false} TransactionsFollowLines(lines: seq<string>)
    ensures ItemsOfLines(Transactions(lines), NonBlankLines(lines))
  {
    if lines != [] {
      var tail := lines[1..];
      TransactionsFollowLines(tail);
      FirstLineFollows(lines[0]);
      ItemsOfLinesConcat(LineTransaction(lines[0]), LineIfNonBlank(lines[0]), Transactions(tail), NonBlankLines(tail));
    }
  }

  lemma FirstLineFollows(line: string)
    ensures ItemsOfLines(LineTransaction(line), LineIfNonBlank(line))
  {
  }

  /** Joining the items of a transaction with commas gives back its stripped line. */
  lemma TransactionRoundTrip(lines: seq<string>, i: int)
    requires 0 <= i < |NonBlankLines(lines)|
    ensures i < |Transactions(lines)|
    ensures Join(Transactions(lines)[i], ",") == Strip(NonBlankLines(lines)[i])
  {
    TransactionsFollowLines(lines);
    JoinSplit(Strip(NonBlankLines(lines)[i]), ',');
  }

  /** Reading is line by line: the transactions of two pieces of a file are those of
      each piece, one after the other. */
  lemma {:induction false} TransactionsAppend(a: seq<string>, b: seq<string>)
    ensures Transactions(a + b) == Transactions(a) + Transactions(b)
  {
    if a == [] {
      assert a + b == b;
    } else {
      var ab := a + b;
      assert ab[0] == a[0];
      assert ab[1..] == a[1..] + b;
      TransactionsAppend(a[1..], b);
      calc {
        Transactions(ab);
        LineTransaction(ab[0]) + Transactions(ab[1..]);
        LineTransaction(a[0]) + Transactions(a[1..] + b);
        LineTransaction(a[0]) + (Transactions(a[1..]) + Transactions(b));
        (LineTransaction(a[0]) + Transactions(a[1..])) + Transactions(b);
        Transactions(a) + Transactions(b);
      }
    }
  }

  /** A blank or white-space-only line adds no transaction. */
  lemma BlankLineIgnored(a: seq<string>, line: string, b: seq<string>)
    requires forall i :: 0 <= i < |line| ==> IsSpace(line[i])
    ensures Transactions(a + [line] + b) == Transactions(a + b)
  {
    assert Transactions([line]) == [] by {
      assert LineTransaction(line) == [];
      assert [line][1..] == [];
    }
    TransactionsAppend(a + [line], b);
    TransactionsAppend(a, [line]);
    TransactionsAppend(a, b);
    calc {
      Transactions(a + [line] + b);
      Transactions(a + [line]) + Transactions(b);
      (Transactions(a) + Transactions([line])) + Transactions(b);
      { assert Transactions(a) + Transactions([line]) == Transactions(a); }
      Transactions(a) + Transactions(b);
      Transactions(a + b);
    }
  }

  // ---------------------------------------------------------------------------
  // Rules
  // ---------------------------------------------------------------------------

  /** A rule with its measures; the itemsets are item lists, or text once shown. */
  datatype Rule<Items> = Rule(antecedents: Items, consequents: Items, support: real, confidence: real, lift: real)

  /** ', '.join(itemset) */
  function ShowItemset(items: seq<string>): (text: string)
    ensures items == [] ==> text == ""
    ensures items != [] ==> items[0] <= text
  {
    Join(items, ", ")
  }

  /** Itemsets shown as their items separated by ", ", in the order given. */
  lemma {:induction false} ShowItemsetAppend(items: seq<string>, item: string)
    ensures ShowItemset([item]) == item
    ensures items != [] ==> ShowItemset(items + [item]) == ShowItemset(items) + ", " + item
  {
    if |items| > 1 {
      ShowItemsetAppend(items[1..], item);
      assert (items + [item])[1..] == items[1..] + [item];
    } else if |items| == 1 {
      assert items + [item] == [items[0], item];
    }
  }

  /** Rewrites both itemset columns as text and keeps the measures. */
  function ShowRules(rules: seq<Rule<seq<string>>>): (shown: seq<Rule<string>>)
    ensures |shown| == |rules|
    ensures forall i :: 0 <= i < |rules| ==>
      shown[i] == Rule(ShowItemset(rules[i].antecedents), ShowItemset(rules[i].consequents),
                       rules[i].support, rules[i].confidence, rules[i].lift)
  {
    seq(|rules|, i requires 0 <= i < |rules| =>
      Rule(ShowItemset(rules[i].antecedents), ShowItemset(rules[i].consequents),
           rules[i].support, rules[i].confidence, rules[i].lift))
  }

  predicate ByLiftDescending<T>(rules: seq<Rule<T>>) {
    forall i, j :: 0 <= i < j < |rules| ==> rules[i].lift >= rules[j].lift
  }

  /** A rule whose lift is at least that of the head of a sorted list can go first. */
  lemma DescendingCons<T>(r: Rule<T>, rules: seq<Rule<T>>)
    requires ByLiftDescending(rules)
    requires rules != [] ==> rules[0].lift <= r.lift
    ensures ByLiftDescending([r] + rules)
  {
    var s := [r] + rules;
    forall i, j | 0 <= i < j < |s| ensures s[i].lift >= s[j].lift {
      assert s[j] == rules[j - 1];
      if i > 0 {
        assert s[i] == rules[i - 1];
      } else {
        assert rules[0].lift >= rules[j - 1].lift;
      }
    }
  }

  /** Inserting a rule into a list sorted by descending lift, before the first rule
      whose lift is not greater: the list stays sorted and gains exactly that rule. */
  function InsertByLift<T(==)>(r: Rule<T>, sorted: seq<Rule<T>>): (result: seq<Rule<T>>)
    requires ByLiftDescending(sorted)
    ensures ByLiftDescending(result)
    ensures multiset(result) == multiset(sorted) + multiset{r}
    ensures |result| == |sorted| + 1
    ensures result[0] == r || (sorted != [] && result[0] == sorted[0])
  {
    if sorted == [] || r.lift >= sorted[0].lift then
      DescendingCons(r, sorted);
      [r] + sorted
    else
      var tail := sorted[1..];
      assert ByLiftDescending(tail) by {
        assert forall i :: 0 <= i < |tail| ==> tail[i] == sorted[i + 1];
      }
      var rest := InsertByLift(r, tail);
      assert sorted == [sorted[0]] + tail;
      DescendingCons(sorted[0], rest);
      [sorted[0]] + rest
  }

  /** The rules in order of descending lift. */
  function SortByLift<T(==)>(rules: seq<Rule<T>>): (sorted: seq<Rule<T>>)
    ensures ByLiftDescending(sorted)
    ensures multiset(sorted) == multiset(rules)
    ensures |sorted| == |rules|
  {
    if rules == [] then []
    else
      assert rules == [rules[0]] + rules[1..];
      InsertByLift(rules[0], SortByLift(rules[1..]))
  }

  const TopCount := 5

  function Min(a: int, b: int): int {
    if a < b then a else b
  }

  /** A prefix of a sorted arrangement of the rules: itself sorted, drawn from the rules,
      and no rule outside it has a higher lift than one inside. */
  lemma SortedPrefix<T>(rules: seq<Rule<T>>, sorted: seq<Rule<T>>, n: int)
    requires ByLiftDescending(sorted) && multiset(sorted) == multiset(rules) && 0 <= n <= |sorted|
    ensures ByLiftDescending(sorted[..n])
    ensures multiset(sorted[..n]) <= multiset(rules)
    ensures forall r, t :: r in rules && r !in sorted[..n] && t in sorted[..n] ==> r.lift <= t.lift
  {
    var top := sorted[..n];
    assert sorted == top + sorted[n..];
    assert multiset(sorted) == multiset(top) + multiset(sorted[n..]);
    forall r, t | r in rules && r !in top && t in top ensures r.lift <= t.lift {
      assert r in multiset(sorted) by { assert r in multiset(rules); }
      var j :| 0 <= j < |sorted| && sorted[j] == r;
      var i :| 0 <= i < n && top[i] == t;
      assert forall k :: 0 <= k < n ==> sorted[k] == top[k];
      assert j >= n;
    }
  }

  /** sort_values(by='lift', ascending=False).head(5): at most five of the rules, by
      descending lift, and no rule left out has a higher lift than one kept. */
  function TopRules<T(==)>(rules: seq<Rule<T>>): (top: seq<Rule<T>>)
    ensures |top| == Min(TopCount, |rules|)
    ensures ByLiftDescending(top)
    ensures multiset(top) <= multiset(rules)
    ensures forall r, t :: r in rules && r !in top && t in top ==> r.lift <= t.lift
  {
    var sorted := SortByLift(rules);
    var n := Min(TopCount, |sorted|);
    SortedPrefix(rules, sorted, n);
    sorted[..n]
  }

  /** The rule chosen for discussion: the first shown, if any. */
  function TopRule<T>(top: seq<Rule<T>>): (r: Option<Rule<T>>)
    ensures r.None? <==> top == []
    ensures ByLiftDescending(top) && r.Some? ==>
      r.value in top && forall t :: t in top ==> t.lift <= r.value.lift
  {
    if top == [] then None
    else
      assert ByLiftDescending(top) ==> forall i :: 0 <= i < |top| ==> top[i].lift <= top[0].lift;
      Some(top[0])
  }

  /** A rule is discussed exactly when there are rules, and it has the highest lift of
      them all. */
  lemma TopRuleHasMaximalLift<T>(rules: seq<Rule<T>>)
    ensures TopRule(TopRules(rules)).None? <==> rules == []
    ensures TopRule(TopRules(rules)).Some? ==>
      && TopRule(TopRules(rules)).value in rules
      && forall r :: r in rules ==> r.lift <= TopRule(TopRules(rules)).value.lift
  {
    var top := TopRules(rules);
    if rules != [] {
      var t := top[0];
      assert t in multiset(rules) by { assert t in multiset(top); }
      forall r | r in rules ensures r.lift <= t.lift {
        if r in top {
          var i :| 0 <= i < |top| && top[i] == r;
        }
      }
    }
  }

  // ---------------------------------------------------------------------------
  // The stage
  // ---------------------------------------------------------------------------

  /** Apriori: the frequent itemsets of the transactions, at minimum support 0.2. */
  type ItemsetMiner = seq<seq<string>> -> seq<seq<string>>

  /** Rule generation from frequent itemsets, at minimum confidence 0.5. The library
      raises an error instead when it is given no itemsets at all. */
  type RuleGenerator = seq<seq<string>> -> seq<Rule<seq<string>>>

  datatype MiningReport = MiningReport(transactions: seq<seq<string>>, top: seq<Rule<string>>, discussed: Option<Rule<string>>)

  /** How the stage ends: the file is missing (reported and returned from), rule
      generation fails because no itemset is frequent (the error ends the program), or
      the top rules are shown. */
  datatype MiningOutcome = FileNotFound | NoFrequentItemsets | Mined(report: MiningReport)

  /** The mining stage: the transactions of the file's lines are mined for frequent
      itemsets, rules are generated from them, and the five rules of highest lift are
      shown, with the first of them discussed if any. */
  function RunAssociationMining(fileExists: bool, lines: seq<string>, apriori: ItemsetMiner, generate: RuleGenerator): (r: MiningOutcome)
    ensures r.FileNotFound? <==> !fileExists
    ensures r.NoFrequentItemsets? <==> fileExists && apriori(Transactions(lines)) == []
    ensures r.Mined? ==> r.report.transactions == Transactions(lines)
    ensures r.Mined? ==> |r.report.top| == Min(TopCount, |generate(apriori(Transactions(lines)))|)
    ensures r.Mined? ==> ByLiftDescending(r.report.top)
    ensures r.Mined? ==> multiset(r.report.top) <= multiset(ShowRules(generate(apriori(Transactions(lines)))))
    ensures r.Mined? ==> forall x, t :: x in ShowRules(generate(apriori(Transactions(lines)))) && x !in r.report.top && t in r.report.top ==> x.lift <= t.lift
    ensures r.Mined? ==> (r.report.discussed.None? <==> r.report.top == [])
    ensures r.Mined? && r.report.top != [] ==> r.report.discussed == Some(r.report.top[0])
    ensures r.Mined? && r.report.discussed.Some? ==>
      forall x :: x in ShowRules(generate(apriori(Transactions(lines)))) ==> x.lift <= r.report.discussed.value.lift
  {
    if !fileExists then FileNotFound
    else
      var transactions := Transactions(lines);
      var itemsets := apriori(transactions);
      if itemsets == [] then NoFrequentItemsets
      else
        var top := TopRules(ShowRules(generate(itemsets)));
        TopRuleHasMaximalLift(ShowRules(generate(itemsets)));
        Mined(MiningReport(transactions, top, TopRule(top)))
  }
}

=== FILE: create_tables.dfy ===
/**
  The retail warehouse's star schema: the four table definitions, the catalog of a
  database file, CREATE TABLE IF NOT EXISTS, SQLite's AUTOINCREMENT keys and foreign-key
  check, and the fixed sequence of statements that initialises a warehouse file.
 */
module StarSchema {
  import opened Wrappers

  datatype SqlType = Integer | Text | Real

  datatype Column = Column(name: string, sqlType: SqlType)

  /** FOREIGN KEY(column) REFERENCES parentTable(parentColumn) */
  datatype ForeignKey = ForeignKey(column: string, parentTable: string, parentColumn: string)

  /** A table definition; `key` names its INTEGER PRIMARY KEY AUTOINCREMENT column. */
  datatype Schema = Schema(key: string, columns: seq<Column>, foreignKeys: seq<ForeignKey>)

  /** A value as SQLite stores it. */
  datatype Value = Null | Int(i: int) | Str(s: string) | Float(r: real)

  /** A stored row: its primary key and the values of its other columns. */
  datatype Row = Row(key: int, values: map<string, Value>)

  /** A stored table: its definition, its rows in insertion order and its AUTOINCREMENT
      counter, the largest key the table has ever handed out (kept by SQLite in
      sqlite_sequence; 0 before the first insert). */
  datatype Table = Table(schema: Schema, rows: seq<Row>, lastKey: int)

  /** The tables of one database file, by name. */
  type Catalog = map<string, Table>

  function ColumnNames(s: Schema): set<string> {
    set c | c in s.columns :: c.name
  }

  /** The key comes first and is an INTEGER column, and every foreign key sits on a
      declared non-key column. */
  predicate WellFormed(s: Schema) {
    && |s.columns| > 0
    && s.columns[0] == Column(s.key, Integer)
    && (forall fk :: fk in s.foreignKeys ==> fk.column in ColumnNames(s) && fk.column != s.key)
  }

  const CustomerDimSchema := Schema("customer_id", [
    Column("customer_id", Integer), Column("cust_raw_id", Integer), Column("name", Text),
    Column("gender", Text), Column("age", Integer), Column("country", Text),
    Column("city", Text), Column("segment", Text)], [])

  const ProductDimSchema := Schema("product_id", [
    Column("product_id", Integer), Column("stock_code", Text), Column("product_name", Text),
    Column("category", Text), Column("brand", Text), Column("unit_price", Real)], [])

  const TimeDimSchema := Schema("time_id", [
    Column("time_id", Integer), Column("date", Text), Column("day", Integer),
    Column("month", Integer), Column("quarter", Integer), Column("year", Integer),
    Column("is_weekend", Integer)], [])

  const SalesFactSchema := Schema("sales_id", [
    Column("sales_id", Integer), Column("invoice_no", Text), Column("product_id", Integer),
    Column("customer_id", Integer), Column("time_id", Integer), Column("quantity", Integer),
    Column("unit_price", Real), Column("sales_amount", Real), Column("country", Text)], [
    ForeignKey("product_id", "ProductDim", "product_id"),
    ForeignKey("customer_id", "CustomerDim", "customer_id"),
    ForeignKey("time_id", "TimeDim", "time_id")])

  const StarTables: set<string> := {"CustomerDim", "ProductDim", "TimeDim", "SalesFact"}

  function DeclaredSchema(name: string): Schema
    requires name in StarTables
  {
    match name
    case "CustomerDim" => CustomerDimSchema
    case "ProductDim" => ProductDimSchema
    case "TimeDim" => TimeDimSchema
    case _ => SalesFactSchema
  }

  /** Every declared table is keyed by an INTEGER AUTOINCREMENT first column, and the fact
      table references the key of each of the three dimensions. */
  lemma DeclaredSchemas()
    ensures forall t :: t in StarTables ==> WellFormed(DeclaredSchema(t))
    ensures SalesFactSchema.foreignKeys == [
      ForeignKey("product_id", "ProductDim", ProductDimSchema.key),
      ForeignKey("customer_id", "CustomerDim", CustomerDimSchema.key),
      ForeignKey("time_id", "TimeDim", TimeDimSchema.key)]
  {
    assert WellFormed(CustomerDimSchema) && WellFormed(ProductDimSchema) && WellFormed(TimeDimSchema);
    assert WellFormed(SalesFactSchema) by {
      var cs := SalesFactSchema.columns;
      assert cs[2] in cs && cs[3] in cs && cs[4] in cs;
    }
    forall t | t in StarTables ensures WellFormed(DeclaredSchema(t)) {
      assert DeclaredSchema(t) in {CustomerDimSchema, ProductDimSchema, TimeDimSchema, SalesFactSchema};
    }
  }

  // ---------------------------------------------------------------------------
  // CREATE TABLE IF NOT EXISTS on a catalog value
  // ---------------------------------------------------------------------------

  function EmptyTable(s: Schema): Table {
    Table(s, [], 0)
  }

  /** CREATE TABLE IF NOT EXISTS. */
  function CreateIfNotExists(c: Catalog, name: string, s: Schema): (r: Catalog)
    ensures r.Keys == c.Keys + {name}
  {
    c[name := if name in c then c[name] else EmptyTable(s)]
  }

  /** The table exists afterwards; an existing table of that name is kept as it is, and
      no other table changes. */
  lemma CreateIfNotExistsEffect(c: Catalog, name: string, s: Schema)
    ensures CreateIfNotExists(c, name, s).Keys == c.Keys + {name}
    ensures forall t :: t in c ==> CreateIfNotExists(c, name, s)[t] == c[t]
    ensures name !in c ==> CreateIfNotExists(c, name, s)[name] == EmptyTable(s)
  {
  }

  /** The effect of the four CREATE statements, in the order the initialiser runs them. */
  function CreateStarSchema(c: Catalog): (r: Catalog)
    ensures c.Keys <= r.Keys && StarTables <= r.Keys
  {
    var c1 := CreateIfNotExists(c, "CustomerDim", CustomerDimSchema);
    var c2 := CreateIfNotExists(c1, "ProductDim", ProductDimSchema);
    var c3 := CreateIfNotExists(c2, "TimeDim", TimeDimSchema);
    CreateIfNotExists(c3, "SalesFact", SalesFactSchema)
  }

  /** After initialisation the file holds the four star tables plus whatever it held
      before; tables that existed are untouched, the others are new and empty. */
  lemma CreateStarSchemaTables(c: Catalog)
    ensures CreateStarSchema(c).Keys == c.Keys + StarTables
    ensures forall t :: t in c ==> CreateStarSchema(c)[t] == c[t]
    ensures forall t :: t in StarTables && t !in c ==> CreateStarSchema(c)[t] == EmptyTable(DeclaredSchema(t))
  {
    var c1 := CreateIfNotExists(c, "CustomerDim", CustomerDimSchema);
    var c2 := CreateIfNotExists(c1, "ProductDim", ProductDimSchema);
    var c3 := CreateIfNotExists(c2, "TimeDim", TimeDimSchema);
    var c4 := CreateIfNotExists(c3, "SalesFact", SalesFactSchema);
    CreateIfNotExistsEffect(c, "CustomerDim", CustomerDimSchema);
    CreateIfNotExistsEffect(c1, "ProductDim", ProductDimSchema);
    CreateIfNotExistsEffect(c2, "TimeDim", TimeDimSchema);
    CreateIfNotExistsEffect(c3, "SalesFact", SalesFactSchema);
    assert c4.Keys == c.Keys + StarTables;
    forall t | t in StarTables && t !in c ensures c4[t] == EmptyTable(DeclaredSchema(t)) {
      if t == "CustomerDim" {
        assert c1[t] == EmptyTable(CustomerDimSchema);
      } else if t == "ProductDim" {
        assert c2[t] == EmptyTable(ProductDimSchema);
      } else if t == "TimeDim" {
        assert c3[t] == EmptyTable(TimeDimSchema);
      }
    }
  }

  /** Running the initialiser twice gives the same catalog as running it once. */
  lemma CreateStarSchemaIdempotent(c: Catalog)
    ensures CreateStarSchema(CreateStarSchema(c)) == CreateStarSchema(c)
  {
    CreateStarSchemaTables(c);
    CreateStarSchemaTables(CreateStarSchema(c));
  }

  /** Every foreign key of every table names an existing table and that table's key. */
  predicate ForeignKeysResolve(c: Catalog) {
    forall t, fk :: t in c && fk in c[t].schema.foreignKeys ==>
      fk.parentTable in c && c[fk.parentTable].schema.key == fk.parentColumn
  }

  /** On a file whose foreign keys resolve and whose star tables (if any) have their
      declared definitions, initialisation keeps every foreign key resolvable. */
  lemma CreateStarSchemaResolves(c: Catalog)
    requires ForeignKeysResolve(c)
    requires forall t :: t in c && t in StarTables ==> c[t].schema == DeclaredSchema(t)
    ensures ForeignKeysResolve(CreateStarSchema(c))
    ensures CreateStarSchema(c)["SalesFact"].schema == SalesFactSchema
  {
    var r := CreateStarSchema(c);
    CreateStarSchemaTables(c);
    forall t, fk | t in r && fk in r[t].schema.foreignKeys
      ensures fk.parentTable in r && r[fk.parentTable].schema.key == fk.parentColumn
    {
      var parent := fk.parentTable;
      if t in StarTables {
        StarTableSchema(c, t);
        DeclaredForeignKeys(t, fk);
        StarTableSchema(c, parent);
      } else {
        assert r[t] == c[t];
        assert r[parent] == c[parent];
      }
    }
    StarTableSchema(c, "SalesFact");
  }

  lemma StarTableSchema(c: Catalog, t: string)
    requires forall t :: t in c && t in StarTables ==> c[t].schema == DeclaredSchema(t)
    requires t in StarTables
    ensures t in CreateStarSchema(c) && CreateStarSchema(c)[t].schema == DeclaredSchema(t)
  {
    CreateStarSchemaTables(c);
  }

  /** The declared foreign keys point at declared tables and their keys. */
  lemma DeclaredForeignKeys(t: string, fk: ForeignKey)
    requires t in StarTables && fk in DeclaredSchema(t).foreignKeys
    ensures fk.parentTable in StarTables && DeclaredSchema(fk.parentTable).key == fk.parentColumn
  {
    assert t == "SalesFact" by {
      assert t in {"CustomerDim", "ProductDim", "TimeDim", "SalesFact"};
    }
  }

  // ---------------------------------------------------------------------------
  // INSERT: AUTOINCREMENT keys and the foreign-key check
  // ---------------------------------------------------------------------------

  datatype InsertError =
    | NoSuchTable
    | NoSuchColumn
    | DatatypeMismatch                    // a non-integer value given for the key column
    | UniqueViolation                     // an explicit key that is already taken
    | ForeignKeyMismatch(fk: ForeignKey)  // the parent table is absent or fk does not name its key
    | ForeignKeyViolation(fk: ForeignKey) // no parent row carries the referenced key

  datatype InsertOutcome = Inserted(catalog: Catalog, key: int) | Rejected(error: InsertError)

  function ValueOf(values: map<string, Value>, column: string): Value {
    if column in values then values[column] else Null
  }

  predicate HasKey(t: Table, k: int) {
    exists i :: 0 <= i < |t.rows| && t.rows[i].key == k
  }

  /** `fk` names an existing table and that table's key column. */
  predicate Resolves(c: Catalog, fk: ForeignKey) {
    fk.parentTable in c && c[fk.parentTable].schema.key == fk.parentColumn
  }

  /** The row value `v` is NULL or a key of the parent table of `fk`. */
  predicate HasParent(c: Catalog, fk: ForeignKey, v: Value) {
    v.Null? || (v.Int? && fk.parentTable in c && HasKey(c[fk.parentTable], v.i))
  }

  /** The row value `v` satisfies `fk` in `c`. */
  predicate Satisfies(c: Catalog, fk: ForeignKey, v: Value) {
    Resolves(c, fk) && HasParent(c, fk, v)
  }

  /** The first foreign key of `fks` whose parent is missing or not keyed by the named
      column. SQLite reports it when the statement is prepared, whatever the values. */
  function FirstMismatch(c: Catalog, fks: seq<ForeignKey>): (r: Option<InsertError>)
    ensures r.None? <==> forall fk :: fk in fks ==> Resolves(c, fk)
    ensures r.Some? ==> r.value.ForeignKeyMismatch? && r.value.fk in fks && !Resolves(c, r.value.fk)
  {
    if fks == [] then None
    else if !Resolves(c, fks[0]) then Some(ForeignKeyMismatch(fks[0]))
    else FirstMismatch(c, fks[1..])
  }

  /** The first foreign key of `fks` for which a row with `values` has no parent row. */
  function FirstViolation(c: Catalog, fks: seq<ForeignKey>, values: map<string, Value>): (r: Option<InsertError>)
    ensures r.None? <==> forall fk :: fk in fks ==> HasParent(c, fk, ValueOf(values, fk.column))
    ensures r.Some? ==> r.value.ForeignKeyViolation? && r.value.fk in fks
    ensures r.Some? ==> !HasParent(c, r.value.fk, ValueOf(values, r.value.fk.column))
  {
    if fks == [] then None
    else if !HasParent(c, fks[0], ValueOf(values, fks[0].column)) then Some(ForeignKeyViolation(fks[0]))
    else FirstViolation(c, fks[1..], values)
  }

  /** The two passes of the foreign-key check together accept a row exactly when it
      satisfies every foreign key. */
  lemma ForeignKeyCheck(c: Catalog, fks: seq<ForeignKey>, values: map<string, Value>)
    ensures FirstMismatch(c, fks).None? && FirstViolation(c, fks, values).None?
      <==> forall fk :: fk in fks ==> Satisfies(c, fk, ValueOf(values, fk.column))
  {
  }

  /** Errors SQLite reports while preparing the statement, before it runs. */
  predicate PrepareError(e: InsertError) {
    e.NoSuchTable? || e.NoSuchColumn? || e.ForeignKeyMismatch?
  }

  function Max(a: int, b: int): int {
    if a < b then b else a
  }

  /** The non-key columns of the stored row; a column the statement leaves out is NULL. */
  function StoredValues(s: Schema, values: map<string, Value>): map<string, Value> {
    map col | col in ColumnNames(s) && col != s.key :: ValueOf(values, col)
  }

  /** INSERT INTO name (columns) VALUES (...), on a connection whose foreign-key
      enforcement is `enforce`. Without an explicit key the row gets the AUTOINCREMENT
      key, one more than the largest key the table ever handed out. Errors found while
      preparing the statement (no such table or column, a foreign key that does not
      resolve) come before those found while running it. */
  function Insert(c: Catalog, enforce: bool, name: string, values: map<string, Value>): (r: InsertOutcome)
    ensures r.Inserted? ==> name in c && r.catalog.Keys == c.Keys
    ensures r.Inserted? ==> forall t :: t in c && t != name ==> r.catalog[t] == c[t]
    ensures r.Inserted? ==> r.catalog[name].schema == c[name].schema
    ensures r.Inserted? ==> r.catalog[name].rows == c[name].rows + [Row(r.key, StoredValues(c[name].schema, values))]
    ensures r.Inserted? ==> r.catalog[name].lastKey == Max(c[name].lastKey, r.key)
  {
    if name !in c then Rejected(NoSuchTable)
    else
      var t := c[name];
      if !(values.Keys <= ColumnNames(t.schema)) then Rejected(NoSuchColumn)
      else
        var mismatch := if enforce then FirstMismatch(c, t.schema.foreignKeys) else None;
        if mismatch.Some? then Rejected(mismatch.value)
        else
          var given := ValueOf(values, t.schema.key);
          if !(given.Null? || given.Int?) then Rejected(DatatypeMismatch)
          else if given.Int? && HasKey(t, given.i) then Rejected(UniqueViolation)
          else
            var violation := if enforce then FirstViolation(c, t.schema.foreignKeys, values) else None;
            if violation.Some? then Rejected(violation.value)
            else
              var k := if given.Int? then given.i else t.lastKey + 1;
              var row := Row(k, StoredValues(t.schema, values));
              Inserted(c[name := Table(t.schema, t.rows + [row], Max(t.lastKey, k))], k)
  }

  /** Keys are pairwise distinct and none exceeds the AUTOINCREMENT counter. */
  predicate TableValid(t: Table) {
    && t.lastKey >= 0
    && (forall i :: 0 <= i < |t.rows| ==> t.rows[i].key <= t.lastKey)
    && (forall i, j :: 0 <= i < j < |t.rows| ==> t.rows[i].key != t.rows[j].key)
  }

  /** An insert keeps keys unique and below the counter, and the counter never goes down. */
  lemma InsertKeepsTableValid(c: Catalog, enforce: bool, name: string, values: map<string, Value>)
    requires name in c && TableValid(c[name])
    requires Insert(c, enforce, name, values).Inserted?
    ensures TableValid(Insert(c, enforce, name, values).catalog[name])
    ensures Insert(c, enforce, name, values).catalog[name].lastKey >= c[name].lastKey
  {
    var r := Insert(c, enforce, name, values);
    var t, t' := c[name], r.catalog[name];
    assert !HasKey(t, r.key);
    forall i, j | 0 <= i < j < |t'.rows| ensures t'.rows[i].key != t'.rows[j].key {
      if j == |t.rows| {
        assert t'.rows[i].key == t.rows[i].key;
      }
    }
  }

  /** An AUTOINCREMENT key is larger than every key the table holds or ever handed out,
      so it is never reused; it becomes the new counter. */
  lemma AutoKeyIsFresh(c: Catalog, enforce: bool, name: string, values: map<string, Value>)
    requires name in c && TableValid(c[name])
    requires ValueOf(values, c[name].schema.key).Null?
    requires Insert(c, enforce, name, values).Inserted?
    ensures Insert(c, enforce, name, values).key == c[name].lastKey + 1
    ensures forall i :: 0 <= i < |c[name].rows| ==> c[name].rows[i].key < Insert(c, enforce, name, values).key
    ensures Insert(c, enforce, name, values).catalog[name].lastKey == Insert(c, enforce, name, values).key
  {
  }

  /** Two AUTOINCREMENT inserts into the same table, one right after the other, hand
      out strictly increasing keys. */
  lemma SuccessiveAutoKeysIncrease(c: Catalog, enforce: bool, name: string, v1: map<string, Value>, v2: map<string, Value>)
    requires name in c && TableValid(c[name])
    requires ValueOf(v1, c[name].schema.key).Null? && ValueOf(v2, c[name].schema.key).Null?
    requires Insert(c, enforce, name, v1).Inserted?
    requires Insert(Insert(c, enforce, name, v1).catalog, enforce, name, v2).Inserted?
    ensures Insert(c, enforce, name, v1).key < Insert(Insert(c, enforce, name, v1).catalog, enforce, name, v2).key
  {
    var c1 := Insert(c, enforce, name, v1).catalog;
    AutoKeyIsFresh(c, enforce, name, v1);
    InsertKeepsTableValid(c, enforce, name, v1);
    AutoKeyIsFresh(c1, enforce, name, v2);
  }

  /** With enforcement on, every inserted row's foreign keys resolve to a parent row. */
  lemma InsertedRowResolves(c: Catalog, name: string, values: map<string, Value>, fk: ForeignKey)
    requires Insert(c, true, name, values).Inserted?
    requires fk in c[name].schema.foreignKeys
    ensures Satisfies(c, fk, ValueOf(values, fk.column))
  {
    ForeignKeyCheck(c, c[name].schema.foreignKeys, values);
  }

  /** With enforcement on, a fact row naming a customer key that CustomerDim does not hold
      is rejected, as is one naming an absent product or date. */
  lemma DanglingFactRejected(c: Catalog, values: map<string, Value>, fk: ForeignKey, k: int)
    requires "SalesFact" in c && c["SalesFact"].schema == SalesFactSchema
    requires fk in SalesFactSchema.foreignKeys
    requires fk.parentTable in c
    requires ValueOf(values, fk.column) == Int(k) && !HasKey(c[fk.parentTable], k)
    ensures Insert(c, true, "SalesFact", values).Rejected?
  {
    if Insert(c, true, "SalesFact", values).Inserted? {
      InsertedRowResolves(c, "SalesFact", values, fk);
    }
  }

  // ---------------------------------------------------------------------------
  // The connection and the initialiser
  // ---------------------------------------------------------------------------

  /** The statements a connection has executed, in order. */
  datatype Statement = ForeignKeysOn | CreateTable(name: string) | InsertInto(name: string) | Commit | Close

  /** A connection to a database file. `durable` is the file as last committed; `tables`
      is the file as this connection sees it, including uncommitted changes. The driver
      opens a transaction implicitly before an INSERT and at no other statement, so a
      CREATE TABLE outside a transaction is committed by SQLite as soon as it runs. */
  class Connection {
    var tables: Catalog
    var durable: Catalog
    var foreignKeys: bool
    var inTransaction: bool
    var isOpen: bool
    var executed: seq<Statement>

    /** Outside a transaction the connection sees exactly the file. */
    predicate Valid()
      reads this
    {
      !inTransaction ==> tables == durable
    }

    constructor (file: Catalog)
      ensures Valid()
      ensures tables == file && durable == file
      ensures !foreignKeys && !inTransaction && isOpen && executed == []
    {
      tables, durable := file, file;
      foreignKeys, inTransaction, isOpen := false, false, true;
      executed := [];
    }

    /** PRAGMA foreign_keys = ON; it applies to this connection only, and SQLite ignores
        it inside a transaction. */
    method EnableForeignKeys()
      requires isOpen && Valid()
      modifies this
      ensures Valid()
      ensures foreignKeys == (old(foreignKeys) || !old(inTransaction))
      ensures tables == old(tables) && durable == old(durable)
      ensures inTransaction == old(inTransaction) && isOpen
      ensures executed == old(executed) + [ForeignKeysOn]
    {
      if !inTransaction {
        foreignKeys := true;
      }
      executed := executed + [ForeignKeysOn];
    }

    /** CREATE TABLE IF NOT EXISTS; outside a transaction it is committed at once. */
    method CreateTableIfNotExists(name: string, schema: Schema)
      requires isOpen && Valid()
      modifies this
      ensures Valid()
      ensures tables == CreateIfNotExists(old(tables), name, schema)
      ensures durable == if old(inTransaction) then old(durable) else tables
      ensures foreignKeys == old(foreignKeys) && inTransaction == old(inTransaction) && isOpen
      ensures executed == old(executed) + [CreateTable(name)]
    {
      if name !in tables {
        tables := tables[name := EmptyTable(schema)];
      }
      if !inTransaction {
        durable := tables;
      }
      executed := executed + [CreateTable(name)];
    }

    /** Prepares the INSERT; if that succeeds, opens a transaction if none is open and
        runs the statement in it. Returns the new row's key, or None when the statement
        is rejected. */
    method InsertRow(name: string, values: map<string, Value>) returns (key: Option<int>)
      requires isOpen && Valid()
      modifies this
      ensures Valid()
      ensures Insert(old(tables), foreignKeys, name, values).Inserted? ==>
        && tables == Insert(old(tables), foreignKeys, name, values).catalog
        && key == Some(Insert(old(tables), foreignKeys, name, values).key)
      ensures Insert(old(tables), foreignKeys, name, values).Rejected? ==> tables == old(tables) && key == None
      ensures inTransaction == (old(inTransaction) || !Insert(old(tables), foreignKeys, name, values).Rejected?
                                || !PrepareError(Insert(old(tables), foreignKeys, name, values).error))
      ensures durable == old(durable) && foreignKeys == old(foreignKeys) && isOpen
      ensures executed == old(executed) + [InsertInto(name)]
    {
      var outcome := Insert(tables, foreignKeys, name, values);
      if !(outcome.Rejected? && PrepareError(outcome.error)) {
        inTransaction := true;
      }
      if outcome.Inserted? {
        tables := outcome.catalog;
        key := Some(outcome.key);
      } else {
        key := None;
      }
      executed := executed + [InsertInto(name)];
    }

    method Commit()
      requires isOpen && Valid()
      modifies this
      ensures Valid()
      ensures durable == tables && tables == old(tables)
      ensures !inTransaction && foreignKeys == old(foreignKeys) && isOpen
      ensures executed == old(executed) + [Statement.Commit]
    {
      durable := tables;
      inTransaction := false;
      executed := executed + [Statement.Commit];
    }

    /** Closing rolls back whatever was not committed, and drops the pragma. */
    method Close()
      requires isOpen && Valid()
      modifies this
      ensures Valid()
      ensures !isOpen && !foreignKeys && !inTransaction
      ensures tables == old(durable) && durable == old(durable)
      ensures executed == old(executed) + [Statement.Close]
    {
      tables := durable;
      foreignKeys, inTransaction, isOpen := false, false, false;
      executed := executed + [Statement.Close];
    }
  }

  /** The four CREATE TABLE IF NOT EXISTS statements of the initialiser, in order. Run
      outside a transaction, each is in the file as soon as it has run. */
  method CreateStarTables(conn: Connection)
    requires conn.isOpen && conn.Valid() && !conn.inTransaction
    modifies conn
    ensures conn.Valid()
    ensures conn.tables == CreateStarSchema(old(conn.tables)) && conn.durable == conn.tables
    ensures conn.foreignKeys == old(conn.foreignKeys) && !conn.inTransaction && conn.isOpen
    ensures conn.executed == old(conn.executed) + [CreateTable("CustomerDim"), CreateTable("ProductDim"),
                                                   CreateTable("TimeDim"), CreateTable("SalesFact")]
  {
    conn.CreateTableIfNotExists("CustomerDim", CustomerDimSchema);
    conn.CreateTableIfNotExists("ProductDim", ProductDimSchema);
    conn.CreateTableIfNotExists("TimeDim", TimeDimSchema);
    conn.CreateTableIfNotExists("SalesFact", SalesFactSchema);
  }

  /** Initialises the warehouse file `file`: foreign keys on, the four CREATE TABLE IF NOT
      EXISTS statements, commit, close. Returns the file as committed and the statements
      executed. */
  method CreateTables(file: Catalog) returns (result: Catalog, executed: seq<Statement>)
    ensures result == CreateStarSchema(file)
    ensures executed == [ForeignKeysOn, CreateTable("CustomerDim"), CreateTable("ProductDim"),
                         CreateTable("TimeDim"), CreateTable("SalesFact"), Statement.Commit, Statement.Close]
  {
    var conn := new Connection(file);
    conn.EnableForeignKeys();
    CreateStarTables(conn);
    conn.Commit();
    conn.Close();
    result, executed := conn.durable, conn.executed;
  }
}

=== FILE: rfm_clustering.dfy ===
/**
  The control logic of customer segmentation: the size guard and its placeholder
  table, clipping before the logarithm, the SSE sweep over K = 1..10, the fixed choice
  of K, and attaching the cluster labels to the feature rows. K-means is an oracle.
 */
module RfmClustering {
  import opened Wrappers

  /** A row of the RFM feature file. */
  datatype RfmRow = RfmRow(customerId: int, recency: int, frequency: int, monetary: real)

  /** A row of the cluster file: a feature row and its Cluster label. */
  datatype ClusteredRow = ClusteredRow(customerId: int, recency: int, frequency: int, monetary: real, cluster: int)

  /** A customer's clipped features, as handed on to the logarithm and the scaler. */
  datatype Point = Point(recency: real, frequency: real, monetary: real)

  /** What one k-means fit reports: a label per point and the within-cluster SSE. */
  datatype Fit = Fit(labels: seq<int>, inertia: real)

  /** K-means with its fixed seed, applied to the log-transformed and standardised
      points; both transformations happen inside the oracle. */
  type KMeans = (int, seq<Point>) -> Fit

  predicate IsLabelling(labels: seq<int>, k: int, n: int) {
    |labels| == n && forall i :: 0 <= i < n ==> 0 <= labels[i] < k
  }

  /** The oracle labels n points with clusters in [0, k) whenever 1 <= k <= n (the
      library refuses more clusters than points). */
  ghost predicate LabelsInRange(kmeans: KMeans) {
    forall k, xs :: 1 <= k <= |xs| ==> IsLabelling(kmeans(k, xs).labels, k, |xs|)
  }

  /** Below this many customers no clustering is attempted. */
  const MinRows := 10

  /** The candidate cluster counts of the elbow sweep, 1 to MaxK. */
  const MaxK := 10

  /** The cluster count the elbow estimate settles on. */
  const DefaultK := 4

  /** The elbow estimate: whatever the SSE curve, the fixed retail default, which is
      one of the candidates of the sweep. */
  function EstimateOptimalK(sse: map<int, real>): (k: int)
    ensures k == DefaultK && 1 <= k <= MaxK
  {
    DefaultK
  }

  /** Clipping from below at 1, applied before the logarithm. */
  function Clip(v: real): (r: real)
    ensures r >= 1.0
    ensures v >= 1.0 ==> r == v
    ensures v < 1.0 ==> r == 1.0
  {
    if v < 1.0 then 1.0 else v
  }

  /** Clipping keeps the order of values, so the logarithm after it does too. */
  lemma ClipMonotone(v: real, w: real)
    requires v <= w
    ensures Clip(v) <= Clip(w)
  {
  }

  function ClipRow(row: RfmRow): Point {
    Point(Clip(row.recency as real), Clip(row.frequency as real), Clip(row.monetary))
  }

  /** The clipped feature columns, row by row. */
  function Points(rows: seq<RfmRow>): (xs: seq<Point>)
    ensures |xs| == |rows|
    ensures forall i :: 0 <= i < |rows| ==> xs[i] == ClipRow(rows[i])
    ensures forall i :: 0 <= i < |rows| ==>
      xs[i].recency >= 1.0 && xs[i].frequency >= 1.0 && xs[i].monetary >= 1.0
  {
    seq(|rows|, i requires 0 <= i < |rows| => ClipRow(rows[i]))
  }

  /** The placeholder table written when there are too few customers. */
  const PlaceholderTable: seq<ClusteredRow> := [
    ClusteredRow(1, 10, 10, 5000.0, 2),
    ClusteredRow(2, 50, 5, 500.0, 1),
    ClusteredRow(3, 200, 1, 50.0, 0)]

  /** The placeholder has customers 1, 2, 3 with pairwise distinct labels in [0, 3). */
  lemma PlaceholderShape()
    ensures |PlaceholderTable| == 3
    ensures forall i :: 0 <= i < 3 ==> PlaceholderTable[i].customerId == i + 1
    ensures forall i :: 0 <= i < 3 ==> 0 <= PlaceholderTable[i].cluster < 3
    ensures forall i, j :: 0 <= i < j < 3 ==> PlaceholderTable[i].cluster != PlaceholderTable[j].cluster
  {
  }

  function WithCluster(row: RfmRow, cluster: int): ClusteredRow {
    ClusteredRow(row.customerId, row.recency, row.frequency, row.monetary, cluster)
  }

  /** What the stage leaves behind. */
  datatype ClusteringOutcome =
    | MissingInput                                                // no feature file: nothing written
    | Placeholder(table: seq<ClusteredRow>)                       // too few customers
    | Clustered(sse: map<int, real>, k: int, table: seq<ClusteredRow>)

  /** `table` is `rows` in the same order with the same values, plus the labels. */
  predicate Labelled(table: seq<ClusteredRow>, rows: seq<RfmRow>, labels: seq<int>) {
    && |table| == |rows| == |labels|
    && forall i :: 0 <= i < |rows| ==> table[i] == WithCluster(rows[i], labels[i])
  }

  /** The segmentation stage. With no feature file nothing happens; with fewer than ten
      rows (none included) the placeholder is written; otherwise every K of 1..10 is
      fitted once for its SSE, K = 4 is chosen, and each row receives its label. */
  method PerformClustering(input: Option<seq<RfmRow>>, kmeans: KMeans) returns (out: ClusteringOutcome)
    requires LabelsInRange(kmeans)
    ensures input.None? <==> out.MissingInput?
    ensures input.Some? && |input.value| < MinRows ==> out == Placeholder(PlaceholderTable)
    ensures input.Some? && |input.value| >= MinRows ==>
      && out.Clustered?
      && out.k == DefaultK
      && (forall k :: k in out.sse <==> 1 <= k <= MaxK)
      && (forall k :: k in out.sse ==> out.sse[k] == kmeans(k, Points(input.value)).inertia)
      && Labelled(out.table, input.value, kmeans(DefaultK, Points(input.value)).labels)
      && (forall i :: 0 <= i < |out.table| ==> 0 <= out.table[i].cluster < DefaultK)
  {
    if input.None? {
      return MissingInput;
    }
    var rows := input.value;
    if |rows| == 0 || |rows| < MinRows {
      return Placeholder(PlaceholderTable);
    }
    var xs := Points(rows);
    var sse: map<int, real> := map[];
    for k := 1 to MaxK + 1
      invariant forall j :: j in sse <==> 1 <= j < k
      invariant forall j :: j in sse ==> sse[j] == kmeans(j, xs).inertia
    {
      var fit := kmeans(k, xs);
      sse := sse[k := fit.inertia];
    }
    var optimalK := EstimateOptimalK(sse);
    var labels := kmeans(optimalK, xs).labels;
    assert IsLabelling(labels, optimalK, |xs|);
    var table := seq(|rows|, i requires 0 <= i < |rows| => WithCluster(rows[i], labels[i]));
    out := Clustered(sse, optimalK, table);
  }
}

=== FILE: rfm_feature_engineering.dfy ===
/**
  Recency, frequency and monetary value per customer, computed from the warehouse's
  SalesFact rows inner-joined with TimeDim on time_id. Dates are day numbers
  (proleptic Gregorian ordinals, day 1 being 0001-01-01).
 */
module RfmFeatureEngineering {
  import opened Wrappers

  // ---------------------------------------------------------------------------
  // Day numbers
  // ---------------------------------------------------------------------------

  predicate IsLeapYear(y: int) {
    y % 4 == 0 && (y % 100 != 0 || y % 400 == 0)
  }

  function DaysInMonth(y: int, m: int): int
    requires 1 <= m <= 12
  {
    if m == 2 then (if IsLeapYear(y) then 29 else 28)
    else if m == 4 || m == 6 || m == 9 || m == 11 then 30
    else 31
  }

  function DaysBeforeMonth(y: int, m: int): int
    requires 1 <= m <= 12
  {
    if m == 1 then 0 else DaysBeforeMonth(y, m - 1) + DaysInMonth(y, m - 1)
  }

  function DaysBeforeYear(y: int): int
    requires y >= 1
  {
    var p := y - 1;
    p * 365 + p / 4 - p / 100 + p / 400
  }

  predicate ValidDate(y: int, m: int, d: int) {
    1 <= y <= 9999 && 1 <= m <= 12 && 1 <= d <= DaysInMonth(y, m)
  }

  /** The day number of a calendar date; the difference of two day numbers is the
      number of days between the dates. */
  function DayNumber(y: int, m: int, d: int): int
    requires ValidDate(y, m, d)
  {
    DaysBeforeYear(y) + DaysBeforeMonth(y, m) + d
  }

  /** The calendar day after (y, m, d). */
  function NextDate(y: int, m: int, d: int): (int, int, int)
    requires ValidDate(y, m, d)
  {
    if d < DaysInMonth(y, m) then (y, m, d + 1)
    else if m < 12 then (y, m + 1, 1)
    else (y + 1, 1, 1)
  }

  lemma {:induction false} YearLength(y: int)
    requires y >= 1
    ensures DaysBeforeYear(y + 1) - DaysBeforeYear(y) == if IsLeapYear(y) then 366 else 365
    ensures DaysBeforeMonth(y, 12) + 31 == if IsLeapYear(y) then 366 else 365
  {
    LeapDays(y);
    MonthStarts(y);
  }

  lemma LeapDays(y: int)
    requires y >= 1
    ensures DaysBeforeYear(y + 1) - DaysBeforeYear(y) == if IsLeapYear(y) then 366 else 365
  {
    QuotientStep4(y - 1);
    QuotientStep100(y - 1);
    QuotientStep400(y - 1);
  }

  /** Counting multiples of 4, 100 and 400 up to `p + 1` instead of `p` adds one exactly
      when `p + 1` is such a multiple. */
  lemma QuotientStep4(p: int)
    ensures (p + 1) / 4 - p / 4 == if (p + 1) % 4 == 0 then 1 else 0
  {
  }

  lemma QuotientStep100(p: int)
    ensures (p + 1) / 100 - p / 100 == if (p + 1) % 100 == 0 then 1 else 0
  {
  }

  lemma QuotientStep400(p: int)
    ensures (p + 1) / 400 - p / 400 == if (p + 1) % 400 == 0 then 1 else 0
  {
  }

  lemma {:induction false} MonthStarts(y: int)
    ensures DaysBeforeMonth(y, 12) == 306 + DaysInMonth(y, 2)
  {
    var feb := DaysInMonth(y, 2);
    assert DaysBeforeMonth(y, 2) == 31;
    assert DaysBeforeMonth(y, 3) == 31 + feb;
    assert DaysBeforeMonth(y, 4) == 62 + feb;
    assert DaysBeforeMonth(y, 5) == 92 + feb;
    assert DaysBeforeMonth(y, 6) == 123 + feb;
    assert DaysBeforeMonth(y, 7) == 153 + feb;
    assert DaysBeforeMonth(y, 8) == 184 + feb;
    assert DaysBeforeMonth(y, 9) == 215 + feb;
    assert DaysBeforeMonth(y, 10) == 245 + feb;
    assert DaysBeforeMonth(y, 11) == 276 + feb;
  }

  /** Day numbers are dense: the following day has the next number, across month and
      year ends. */
  lemma NextDateIsNextDay(y: int, m: int, d: int)
    requires ValidDate(y, m, d) && (y, m, d) != (9999, 12, 31)
    ensures var (y', m', d') := NextDate(y, m, d);
      ValidDate(y', m', d') && DayNumber(y', m', d') == DayNumber(y, m, d) + 1
  {
    if d == DaysInMonth(y, m) && m == 12 {
      YearLength(y);
    }
  }

  /** The fixed snapshot date, 2011-12-10, from which recency is counted. */
  const SnapshotDay: int := DayNumber(2011, 12, 10)

  // ---------------------------------------------------------------------------
  // The join
  // ---------------------------------------------------------------------------

  /** The SalesFact columns the aggregation reads. */
  datatype FactRow = FactRow(customerId: int, salesAmount: real, invoiceNo: string, timeId: int)

  /** A TimeDim row: its key and its date as a day number. */
  datatype TimeRow = TimeRow(timeId: int, date: int)

  /** A row of SalesFact JOIN TimeDim ON time_id, as the query selects it. */
  datatype JoinedRow = JoinedRow(customerId: int, salesAmount: real, invoiceNo: string, date: int)

  function Combine(f: FactRow, t: TimeRow): JoinedRow {
    JoinedRow(f.customerId, f.salesAmount, f.invoiceNo, t.date)
  }

  predicate HasTime(f: FactRow, times: seq<TimeRow>) {
    exists t :: t in times && t.timeId == f.timeId
  }

  /** The joined rows one fact row contributes: one per TimeDim row with its time_id. */
  function Matches(f: FactRow, times: seq<TimeRow>): (r: seq<JoinedRow>)
    ensures forall j :: j in r <==> exists t :: t in times && t.timeId == f.timeId && j == Combine(f, t)
  {
    if times == [] then []
    else (if times[0].timeId == f.timeId then [Combine(f, times[0])] else []) + Matches(f, times[1..])
  }

  /** The inner join, fact row by fact row. SQLite gives no order; the aggregation does
      not depend on one (RfmPermutationInvariant). */
  function Join(facts: seq<FactRow>, times: seq<TimeRow>): (r: seq<JoinedRow>)
    ensures forall j :: j in r ==> exists i :: 0 <= i < |facts| && j in Matches(facts[i], times)
  {
    if facts == [] then []
    else
      var r := Matches(facts[0], times) + Join(facts[1..], times);
      assert forall j :: j in Join(facts[1..], times) ==> exists i :: 0 <= i < |facts| && j in Matches(facts[i], times) by {
        forall j | j in Join(facts[1..], times) ensures exists i :: 0 <= i < |facts| && j in Matches(facts[i], times) {
          var i :| 0 <= i < |facts[1..]| && j in Matches(facts[1..][i], times);
          assert facts[1..][i] == facts[i + 1];
        }
      }
      r
  }

  /** A joined row is exactly a fact row paired with a date row of the same time_id. */
  lemma {:induction false} JoinMembership(facts: seq<FactRow>, times: seq<TimeRow>, j: JoinedRow)
    ensures j in Join(facts, times) <==>
      exists f, t :: f in facts && t in times && t.timeId == f.timeId && j == Combine(f, t)
  {
    if facts != [] {
      var f0, tail := facts[0], facts[1..];
      JoinMembership(tail, times, j);
      assert Join(facts, times) == Matches(f0, times) + Join(tail, times);
      if j in Matches(f0, times) {
        var t :| t in times && t.timeId == f0.timeId && j == Combine(f0, t);
        assert f0 in facts;
      }
      if exists f, t :: f in tail && t in times && t.timeId == f.timeId && j == Combine(f, t) {
        var f, t :| f in tail && t in times && t.timeId == f.timeId && j == Combine(f, t);
        assert f in facts;
      }
      if exists f, t :: f in facts && t in times && t.timeId == f.timeId && j == Combine(f, t) {
        var f, t :| f in facts && t in times && t.timeId == f.timeId && j == Combine(f, t);
        if f != f0 {
          assert f in tail;
        }
      }
    }
  }

  /** The fact rows that have a date row. */
  function Matched(facts: seq<FactRow>, times: seq<TimeRow>): (r: seq<FactRow>)
    ensures forall f :: f in r <==> f in facts && HasTime(f, times)
  {
    if facts == [] then []
    else (if HasTime(facts[0], times) then [facts[0]] else []) + Matched(facts[1..], times)
  }

  /** Fact rows without a date row take no part in the join. */
  lemma {:induction false} JoinDropsUnmatched(facts: seq<FactRow>, times: seq<TimeRow>)
    ensures Join(facts, times) == Join(Matched(facts, times), times)
  {
    if facts != [] {
      JoinDropsUnmatched(facts[1..], times);
      MatchesEmptyWithoutTime(facts[0], times);
      if HasTime(facts[0], times) {
        var m := Matched(facts, times);
        assert m[0] == facts[0] && m[1..] == Matched(facts[1..], times);
      } else {
        assert Matched(facts, times) == Matched(facts[1..], times);
      }
    }
  }

  lemma MatchesEmptyWithoutTime(f: FactRow, times: seq<TimeRow>)
    ensures !HasTime(f, times) ==> Matches(f, times) == []
  {
  }

  /** With time_id unique in TimeDim, the join has exactly one row per matched fact row. */
  lemma {:induction false} JoinSize(facts: seq<FactRow>, times: seq<TimeRow>)
    requires forall i, k :: 0 <= i < k < |times| ==> times[i].timeId != times[k].timeId
    ensures |Join(facts, times)| == |Matched(facts, times)|
  {
    if facts != [] {
      JoinSize(facts[1..], times);
      MatchesSize(facts[0], times);
    }
  }

  lemma {:induction false} MatchesSize(f: FactRow, times: seq<TimeRow>)
    requires forall i, k :: 0 <= i < k < |times| ==> times[i].timeId != times[k].timeId
    ensures |Matches(f, times)| == if HasTime(f, times) then 1 else 0
  {
    if times != [] {
      MatchesSize(f, times[1..]);
      if times[0].timeId == f.timeId {
        assert !HasTime(f, times[1..]) by {
          forall t | t in times[1..] ensures t.timeId != f.timeId {
            var k :| 0 <= k < |times[1..]| && times[1..][k] == t;
            assert times[k + 1] == t;
          }
        }
      } else if HasTime(f, times) {
        var t :| t in times && t.timeId == f.timeId;
        assert t in times[1..];
      }
    }
  }

  // ---------------------------------------------------------------------------
  // Group by customer_id and aggregate
  // ---------------------------------------------------------------------------

  function CustomerIds(rows: seq<JoinedRow>): set<int> {
    set r | r in rows :: r.customerId
  }

  /** The rows of one customer, in order. */
  function RowsOf(rows: seq<JoinedRow>, c: int): (r: seq<JoinedRow>)
    ensures forall x :: x in r <==> x in rows && x.customerId == c
  {
    if rows == [] then []
    else (if rows[0].customerId == c then [rows[0]] else []) + RowsOf(rows[1..], c)
  }

  /** The customer's most recent date. */
  function LatestDate(rows: seq<JoinedRow>, c: int): (d: int)
    requires c in CustomerIds(rows)
    ensures exists r :: r in rows && r.customerId == c && r.date == d
    ensures forall r :: r in rows && r.customerId == c ==> r.date <= d
  {
    var r0 := rows[0];
    if c !in CustomerIds(rows[1..]) then
      assert r0.customerId == c;
      r0.date
    else
      var rest := LatestDate(rows[1..], c);
      if r0.customerId == c && r0.date > rest then r0.date else rest
  }

  /** The customer's distinct invoice numbers. */
  function Invoices(rows: seq<JoinedRow>, c: int): (s: set<string>)
    ensures s == {} <==> c !in CustomerIds(rows)
  {
    var s := set r | r in rows && r.customerId == c :: r.invoiceNo;
    assert c in CustomerIds(rows) ==> exists r :: r in rows && r.customerId == c && r.invoiceNo in s;
    s
  }

  /** The sum of the customer's sales amounts. */
  function Monetary(rows: seq<JoinedRow>, c: int): real {
    if rows == [] then 0.0
    else (if rows[0].customerId == c then rows[0].salesAmount else 0.0) + Monetary(rows[1..], c)
  }

  /** The plain sum of the sales amounts of some rows. */
  function Total(rows: seq<JoinedRow>): real {
    if rows == [] then 0.0 else rows[0].salesAmount + Total(rows[1..])
  }

  /** The one-pass sum is the sum over the customer's group, as grouping then summing
      computes it. */
  lemma {:induction false} MonetaryIsGroupSum(rows: seq<JoinedRow>, c: int)
    ensures Monetary(rows, c) == Total(RowsOf(rows, c))
  {
    if rows != [] {
      var rest := RowsOf(rows[1..], c);
      MonetaryIsGroupSum(rows[1..], c);
      if rows[0].customerId == c {
        assert RowsOf(rows, c) == [rows[0]] + rest;
        assert ([rows[0]] + rest)[1..] == rest;
      } else {
        assert RowsOf(rows, c) == [] + rest == rest;
      }
    }
  }

  datatype Rfm = Rfm(recency: int, frequency: int, monetary: real)

  /** One entry per customer with at least one joined row. */
  function RfmTable(rows: seq<JoinedRow>, snapshot: int): (m: map<int, Rfm>)
    ensures m.Keys == CustomerIds(rows)
  {
    map c | c in CustomerIds(rows) :: Rfm(snapshot - LatestDate(rows, c), |Invoices(rows, c)|, Monetary(rows, c))
  }

  /** The customers that have a fact row whose time_id is in TimeDim. */
  function JoinedCustomers(facts: seq<FactRow>, times: seq<TimeRow>): set<int> {
    set f | f in facts && HasTime(f, times) :: f.customerId
  }

  /** The feature engine: nothing when the warehouse file is missing, otherwise one
      entry for each customer with at least one joined fact row, and for no other. */
  function CalculateRfm(dbExists: bool, facts: seq<FactRow>, times: seq<TimeRow>): (r: Option<map<int, Rfm>>)
    ensures r.None? <==> !dbExists
    ensures r.Some? ==> r.value.Keys == JoinedCustomers(facts, times)
    ensures r.Some? ==> r.value == RfmTable(Join(facts, times), SnapshotDay)
  {
    if !dbExists then None
    else
      var rows := Join(facts, times);
      assert CustomerIds(rows) == JoinedCustomers(facts, times) by {
        forall c ensures c in CustomerIds(rows) <==> c in JoinedCustomers(facts, times) {
          if c in CustomerIds(rows) {
            var j :| j in rows && j.customerId == c;
            JoinMembership(facts, times, j);
          }
          if c in JoinedCustomers(facts, times) {
            var f :| f in facts && HasTime(f, times) && f.customerId == c;
            var t :| t in times && t.timeId == f.timeId;
            JoinMembership(facts, times, Combine(f, t));
          }
        }
      }
      Some(RfmTable(rows, SnapshotDay))
  }

  // ---------------------------------------------------------------------------
  // Properties
  // ---------------------------------------------------------------------------

  /** Recency is the number of days from the customer's latest date to the snapshot. */
  lemma RecencyIsDaysSinceLatest(rows: seq<JoinedRow>, snapshot: int, c: int)
    requires c in CustomerIds(rows)
    ensures var latest := snapshot - RfmTable(rows, snapshot)[c].recency;
      && (exists r :: r in rows && r.customerId == c && r.date == latest)
      && (forall r :: r in rows && r.customerId == c ==> r.date <= latest)
  {
  }

  /** When the snapshot is after every date, as it is meant to be, every recency is at
      least one day. */
  lemma RecencyAtLeastOne(rows: seq<JoinedRow>, snapshot: int)
    requires forall r :: r in rows ==> r.date < snapshot
    ensures forall c :: c in RfmTable(rows, snapshot) ==> RfmTable(rows, snapshot)[c].recency >= 1
  {
  }

  lemma InvoicesBounded(rows: seq<JoinedRow>, c: int)
    ensures |Invoices(rows, c)| <= |RowsOf(rows, c)|
  {
    var own := RowsOf(rows, c);
    assert Invoices(rows, c) == InvoiceNumbers(own);
    InvoiceNumbersBounded(own);
  }

  function InvoiceNumbers(rows: seq<JoinedRow>): set<string> {
    set r | r in rows :: r.invoiceNo
  }

  /** A list of rows holds at most as many distinct invoice numbers as rows. */
  lemma {:induction false} InvoiceNumbersBounded(rows: seq<JoinedRow>)
    ensures |InvoiceNumbers(rows)| <= |rows|
  {
    if rows != [] {
      var tail := rows[1..];
      InvoiceNumbersBounded(tail);
      assert InvoiceNumbers(rows) <= InvoiceNumbers(tail) + {rows[0].invoiceNo} by {
        forall v | v in InvoiceNumbers(rows) ensures v in InvoiceNumbers(tail) + {rows[0].invoiceNo} {
          var r :| r in rows && r.invoiceNo == v;
          if r != rows[0] {
            assert r in tail;
          }
        }
      }
      assert |InvoiceNumbers(tail) + {rows[0].invoiceNo}| <= |InvoiceNumbers(tail)| + 1;
      SubsetCard(InvoiceNumbers(rows), InvoiceNumbers(tail) + {rows[0].invoiceNo});
    }
  }

  lemma SubsetCard(a: set<string>, b: set<string>)
    requires a <= b
    ensures |a| <= |b|
  {
    assert b == a + (b - a);
  }

  /** Frequency is the number of distinct invoice numbers on the customer's own rows,
      each of which is counted. */
  lemma FrequencyCountsInvoices(rows: seq<JoinedRow>, snapshot: int, c: int)
    requires c in CustomerIds(rows)
    ensures RfmTable(rows, snapshot)[c].frequency == |InvoiceNumbers(RowsOf(rows, c))|
    ensures forall r :: r in rows && r.customerId == c ==> r.invoiceNo in InvoiceNumbers(RowsOf(rows, c))
  {
    assert Invoices(rows, c) == InvoiceNumbers(RowsOf(rows, c));
  }

  /** Frequency counts distinct invoices: at least one, at most the customer's rows. */
  lemma FrequencyBounds(rows: seq<JoinedRow>, snapshot: int, c: int)
    requires c in CustomerIds(rows)
    ensures 1 <= RfmTable(rows, snapshot)[c].frequency <= |RowsOf(rows, c)|
  {
    var r :| r in rows && r.customerId == c;
    assert r.invoiceNo in Invoices(rows, c);
    InvoicesBounded(rows, c);
  }

  /** With positive sales amounts, every customer's monetary value is positive. */
  lemma {:induction false} MonetaryPositive(rows: seq<JoinedRow>, c: int)
    requires forall r :: r in rows ==> r.salesAmount > 0.0
    requires c in CustomerIds(rows)
    ensures Monetary(rows, c) > 0.0
  {
    if c in CustomerIds(rows[1..]) {
      MonetaryNonNegative(rows[1..], c);
      MonetaryPositive(rows[1..], c);
    } else {
      MonetaryNonNegative(rows[1..], c);
    }
  }

  /** With non-negative sales amounts, every customer's monetary value is non-negative. */
  lemma {:induction false} MonetaryNonNegative(rows: seq<JoinedRow>, c: int)
    requires forall r :: r in rows ==> r.salesAmount >= 0.0
    ensures Monetary(rows, c) >= 0.0
  {
    if rows != [] {
      MonetaryNonNegative(rows[1..], c);
    }
  }

  lemma {:induction false} MonetaryAppend(a: seq<JoinedRow>, b: seq<JoinedRow>, c: int)
    ensures Monetary(a + b, c) == Monetary(a, c) + Monetary(b, c)
  {
    if a != [] {
      MonetaryAppend(a[1..], b, c);
      assert (a + b)[0] == a[0];
      assert (a + b)[1..] == a[1..] + b;
    } else {
      assert a + b == b;
    }
  }

  /** The monetary value depends on the rows and not on their order. */
  lemma {:induction false} MonetaryPermutation(a: seq<JoinedRow>, b: seq<JoinedRow>, c: int)
    requires multiset(a) == multiset(b)
    ensures Monetary(a, c) == Monetary(b, c)
  {
    if a != [] {
      var x := a[0];
      assert x in multiset(b);
      var i :| 0 <= i < |b| && b[i] == x;
      var rest := b[..i] + b[i + 1..];
      assert multiset(rest) == multiset(a[1..]) by {
        RemoveAt(b, i);
        assert a == [x] + a[1..];
      }
      MonetaryPermutation(a[1..], rest, c);
      MonetaryRemoveAt(b, i, c);
      assert Monetary(a, c) == Monetary([x], c) + Monetary(a[1..], c) by {
        assert a == [x] + a[1..];
        MonetaryAppend([x], a[1..], c);
      }
    }
  }

  lemma RemoveAt(b: seq<JoinedRow>, i: int)
    requires 0 <= i < |b|
    ensures multiset(b[..i] + b[i + 1..]) == multiset(b) - multiset{b[i]}
  {
    assert b == b[..i] + [b[i]] + b[i + 1..];
  }

  lemma MonetaryRemoveAt(b: seq<JoinedRow>, i: int, c: int)
    requires 0 <= i < |b|
    ensures Monetary(b, c) == Monetary([b[i]], c) + Monetary(b[..i] + b[i + 1..], c)
  {
    assert b == b[..i] + [b[i]] + b[i + 1..];
    MonetaryAppend(b[..i] + [b[i]], b[i + 1..], c);
    MonetaryAppend(b[..i], [b[i]], c);
    MonetaryAppend(b[..i], b[i + 1..], c);
  }

  /** Reordering the joined rows changes no customer's features. */
  lemma RfmPermutationInvariant(a: seq<JoinedRow>, b: seq<JoinedRow>, snapshot: int)
    requires multiset(a) == multiset(b)
    ensures RfmTable(a, snapshot) == RfmTable(b, snapshot)
  {
    assert forall r :: r in a <==> r in b by {
      forall r ensures r in a <==> r in b {
        assert r in a <==> r in multiset(a);
        assert r in b <==> r in multiset(b);
      }
    }
    assert CustomerIds(a) == CustomerIds(b);
    forall c | c in CustomerIds(a)
      ensures RfmTable(a, snapshot)[c] == RfmTable(b, snapshot)[c]
    {
      SameRowsSameDateAndInvoices(a, b, c);
      MonetaryPermutation(a, b, c);
    }
  }

  /** Recency and frequency depend only on which rows occur, not on how often or where. */
  lemma SameRowsSameDateAndInvoices(a: seq<JoinedRow>, b: seq<JoinedRow>, c: int)
    requires forall r :: r in a <==> r in b
    requires c in CustomerIds(a)
    ensures c in CustomerIds(b) && LatestDate(a, c) == LatestDate(b, c)
    ensures Invoices(a, c) == Invoices(b, c)
  {
    var r :| r in a && r.customerId == c;
    assert r in b;
    var la, lb := LatestDate(a, c), LatestDate(b, c);
    assert la <= lb && lb <= la;
  }

  /** A customer none of whose fact rows has its date in TimeDim gets no features. */
  lemma UnmatchedCustomerAbsent(facts: seq<FactRow>, times: seq<TimeRow>, c: int)
    requires forall f :: f in facts && f.customerId == c ==> !HasTime(f, times)
    ensures CalculateRfm(true, facts, times).value.Keys == JoinedCustomers(facts, times)
    ensures c !in CalculateRfm(true, facts, times).value
  {
  }

  /** A customer whose only invoice, of amount 100, is dated 2011-12-08 has recency 2,
      frequency 1 and monetary value 100. */
  lemma SingleInvoiceExample(invoice: string, c: int)
    ensures var rows := [JoinedRow(c, 100.0, invoice, DayNumber(2011, 12, 8))];
      RfmTable(rows, SnapshotDay)[c] == Rfm(2, 1, 100.0)
  {
    var rows := [JoinedRow(c, 100.0, invoice, DayNumber(2011, 12, 8))];
    assert CustomerIds(rows) == {c};
    assert Invoices(rows, c) == {invoice};
    assert rows[1..] == [];
    assert LatestDate(rows, c) == DayNumber(2011, 12, 8);
    assert Monetary(rows, c) == 100.0;
  }
}

=== FILE: rfm_segment_profiling.dfy ===
/**
  Segment profiling: cluster labels read back as text, the mean recency, frequency and
  monetary value of each cluster, and the fixed table from labels to segment names.
 */
module RfmSegmentProfiling {
  import opened Wrappers
  import opened RfmClustering

  // ---------------------------------------------------------------------------
  // Labels as text
  // ---------------------------------------------------------------------------

  function DigitChar(d: int): char
    requires 0 <= d <= 9
  {
    ('0' as int + d) as char
  }

  function NaturalText(n: nat): (s: string)
    ensures |s| >= 1
    ensures n >= 10 ==> |s| >= 2
  {
    if n < 10 then [DigitChar(n)] else NaturalText(n / 10) + [DigitChar(n % 10)]
  }

  /** The decimal text of an integer, as Python's str gives it. */
  function DecimalText(n: int): (s: string)
    ensures |s| == 1 <==> 0 <= n <= 9
    ensures 0 <= n <= 9 ==> s == [DigitChar(n)]
  {
    if n < 0 then "-" + NaturalText(-n) else NaturalText(n)
  }

  // ---------------------------------------------------------------------------
  // Segment names
  // ---------------------------------------------------------------------------

  /** The label-to-name table; it names three of the clusters. */
  const SegmentMap: map<string, string> := map[
    "2" := "01_Champions",
    "1" := "02_Loyal_Customers",
    "0" := "03_Losing_Customers"]

  /** Mapping a label through the table: an absent label gives a missing value. */
  function SegmentName(key: string): (r: Option<string>)
    ensures r.Some? <==> key == "0" || key == "1" || key == "2"
    ensures r.Some? ==> r.value in SegmentMap.Values
    ensures key == "2" ==> r == Some("01_Champions")
    ensures key == "1" ==> r == Some("02_Loyal_Customers")
    ensures key == "0" ==> r == Some("03_Losing_Customers")
  {
    if key in SegmentMap then Some(SegmentMap[key]) else None
  }

  /** The segment of a numeric cluster label, matched through its decimal text: exactly
      the labels 0, 1 and 2 are named. */
  function ClusterSegment(cluster: int): (r: Option<string>)
    ensures r.Some? <==> 0 <= cluster <= 2
    ensures cluster == 2 ==> r == Some("01_Champions")
    ensures cluster == 1 ==> r == Some("02_Loyal_Customers")
    ensures cluster == 0 ==> r == Some("03_Losing_Customers")
  {
    var text := DecimalText(cluster);
    assert 0 <= cluster <= 9 ==> text[0] == DigitChar(cluster);
    SegmentName(text)
  }

  /** Clustering uses four clusters, so a label without a name can occur: some oracle
      allowed by the clustering stage gives label 3 to the fourth customer of every
      large enough input, and label 3 has no segment name. */
  lemma FourthClusterUnnamed()
    ensures ClusterSegment(DefaultK - 1) == None
    ensures exists kmeans: KMeans ::
              && LabelsInRange(kmeans)
              && forall xs: seq<Point> :: |xs| >= MinRows ==> kmeans(DefaultK, xs).labels[3] == DefaultK - 1
  {
    var kmeans: KMeans := (k: int, xs: seq<Point>) =>
      Fit(seq(|xs|, i => if k == DefaultK && i == 3 then 3 else 0), 0.0);
    assert LabelsInRange(kmeans);
    assert forall xs: seq<Point> :: |xs| >= MinRows ==> kmeans(DefaultK, xs).labels[3] == DefaultK - 1;
  }

  // ---------------------------------------------------------------------------
  // Profiles
  // ---------------------------------------------------------------------------

  /** A row of the cluster file once its Cluster column holds text. */
  datatype ProfileRow = ProfileRow(customerId: int, recency: int, frequency: int, monetary: real, cluster: string)

  function AsText(rows: seq<ClusteredRow>): (r: seq<ProfileRow>)
    ensures |r| == |rows|
    ensures forall i :: 0 <= i < |rows| ==>
      r[i] == ProfileRow(rows[i].customerId, rows[i].recency, rows[i].frequency, rows[i].monetary, DecimalText(rows[i].cluster))
  {
    seq(|rows|, i requires 0 <= i < |rows| =>
      ProfileRow(rows[i].customerId, rows[i].recency, rows[i].frequency, rows[i].monetary, DecimalText(rows[i].cluster)))
  }

  datatype Metric = Recency | Frequency | Monetary

  function MetricValue(r: ProfileRow, m: Metric): real {
    match m
    case Recency => r.recency as real
    case Frequency => r.frequency as real
    case Monetary => r.monetary
  }

  function Labels(rows: seq<ProfileRow>): set<string> {
    set r | r in rows :: r.cluster
  }

  /** The rows of one cluster, in order: every row lands in the group of its own label,
      with its multiplicity, and in no other. */
  function Group(rows: seq<ProfileRow>, key: string): (g: seq<ProfileRow>)
    ensures forall r :: multiset(g)[r] == if r.cluster == key then multiset(rows)[r] else 0
  {
    if rows == [] then []
    else
      assert rows == [rows[0]] + rows[1..];
      (if rows[0].cluster == key then [rows[0]] else []) + Group(rows[1..], key)
  }

  function Values(g: seq<ProfileRow>, m: Metric): (xs: seq<real>)
    ensures |xs| == |g|
    ensures forall i :: 0 <= i < |g| ==> xs[i] == MetricValue(g[i], m)
  {
    seq(|g|, i requires 0 <= i < |g| => MetricValue(g[i], m))
  }

  function Sum(xs: seq<real>): real {
    if xs == [] then 0.0 else xs[0] + Sum(xs[1..])
  }

  function Mean(xs: seq<real>): real
    requires |xs| > 0
  {
    Sum(xs) / (|xs| as real)
  }

  /** The smallest of some values. */
  function Least(xs: seq<real>): (lo: real)
    requires |xs| > 0
    ensures exists i :: 0 <= i < |xs| && xs[i] == lo
    ensures forall i :: 0 <= i < |xs| ==> lo <= xs[i]
  {
    if |xs| == 1 then xs[0]
    else
      var rest := Least(xs[1..]);
      assert forall i :: 1 <= i < |xs| ==> xs[i] == xs[1..][i - 1];
      if xs[0] <= rest then xs[0] else rest
  }

  /** The largest of some values. */
  function Greatest(xs: seq<real>): (hi: real)
    requires |xs| > 0
    ensures exists i :: 0 <= i < |xs| && xs[i] == hi
    ensures forall i :: 0 <= i < |xs| ==> xs[i] <= hi
  {
    if |xs| == 1 then xs[0]
    else
      var rest := Greatest(xs[1..]);
      assert forall i :: 1 <= i < |xs| ==> xs[i] == xs[1..][i - 1];
      if xs[0] >= rest then xs[0] else rest
  }

  /** The mean of one metric over one cluster: it lies between the metric of some row of
      the cluster and that of another. */
  function GroupMean(rows: seq<ProfileRow>, key: string, m: Metric): (mean: real)
    requires key in Labels(rows)
    ensures exists r :: r in rows && r.cluster == key && MetricValue(r, m) <= mean
    ensures exists r :: r in rows && r.cluster == key && mean <= MetricValue(r, m)
  {
    var g := Group(rows, key);
    var r :| r in rows && r.cluster == key;
    assert r in multiset(g);
    var xs := Values(g, m);
    MeanWithinBounds(xs, Least(xs), Greatest(xs));
    var i :| 0 <= i < |xs| && xs[i] == Least(xs);
    var j :| 0 <= j < |xs| && xs[j] == Greatest(xs);
    assert g[i] in multiset(g) && g[j] in multiset(g);
    assert g[i] in rows && g[i].cluster == key;
    assert g[j] in rows && g[j].cluster == key;
    Mean(xs)
  }

  /** The mean recency, frequency and monetary value of a cluster. */
  datatype Profile = Profile(recency: real, frequency: real, monetary: real)

  function ProfileMetric(p: Profile, m: Metric): real {
    match m
    case Recency => p.recency
    case Frequency => p.frequency
    case Monetary => p.monetary
  }

  /** One profile per distinct label. */
  function Profiles(rows: seq<ProfileRow>): (p: map<string, Profile>)
    ensures p.Keys == Labels(rows)
  {
    map key | key in Labels(rows) ::
      Profile(GroupMean(rows, key, Recency), GroupMean(rows, key, Frequency),
              GroupMean(rows, key, Monetary))
  }

  lemma {:induction false} SumBounds(xs: seq<real>, lo: real, hi: real)
    requires forall i :: 0 <= i < |xs| ==> lo <= xs[i] <= hi
    ensures (|xs| as real) * lo <= Sum(xs) <= (|xs| as real) * hi
  {
    if xs != [] {
      SumBounds(xs[1..], lo, hi);
    }
  }

  /** A mean lies between any lower and upper bound of the values, so between their
      minimum and maximum. */
  lemma MeanWithinBounds(xs: seq<real>, lo: real, hi: real)
    requires |xs| > 0
    requires forall i :: 0 <= i < |xs| ==> lo <= xs[i] <= hi
    ensures lo <= Mean(xs) <= hi
  {
    SumBounds(xs, lo, hi);
    var n := |xs| as real;
    assert Sum(xs) / n >= (n * lo) / n;
    assert Sum(xs) / n <= (n * hi) / n;
  }

  /** Each profile value lies within the range of that metric over its cluster. */
  lemma ProfileWithinGroupRange(rows: seq<ProfileRow>, key: string, m: Metric, lo: real, hi: real)
    requires key in Labels(rows)
    requires forall r :: r in rows && r.cluster == key ==> lo <= MetricValue(r, m) <= hi
    ensures lo <= ProfileMetric(Profiles(rows)[key], m) <= hi
  {
    var g := Group(rows, key);
    var xs := Values(g, m);
    forall i | 0 <= i < |xs| ensures lo <= xs[i] <= hi {
      assert g[i] in multiset(g);
    }
    var r :| r in rows && r.cluster == key;
    assert r in multiset(g);
    MeanWithinBounds(xs, lo, hi);
  }

  /** Every row belongs to exactly one profiled cluster: the one of its own label. */
  lemma EachRowInOneGroup(rows: seq<ProfileRow>, r: ProfileRow, key: string)
    requires r in rows
    ensures r.cluster in Profiles(rows)
    ensures r in Group(rows, key) <==> key == r.cluster
  {
    assert r in multiset(rows);
    assert r in Group(rows, key) <==> r in multiset(Group(rows, key));
  }

  // ---------------------------------------------------------------------------
  // The saved table
  // ---------------------------------------------------------------------------

  /** A row of the final segment table. */
  datatype SegmentedRow = SegmentedRow(customerId: int, recency: int, frequency: int, monetary: real, segmentName: Option<string>)

  /** Every input row, in order and unchanged, with its segment name. */
  function SegmentTable(rows: seq<ClusteredRow>): (t: seq<SegmentedRow>)
    ensures |t| == |rows|
    ensures forall i :: 0 <= i < |rows| ==>
      && t[i].customerId == rows[i].customerId && t[i].recency == rows[i].recency
      && t[i].frequency == rows[i].frequency && t[i].monetary == rows[i].monetary
      && (t[i].segmentName.Some? <==> 0 <= rows[i].cluster <= 2)
    ensures forall i :: 0 <= i < |rows| ==> t[i].segmentName == ClusterSegment(rows[i].cluster)
  {
    seq(|rows|, i requires 0 <= i < |rows| =>
      SegmentedRow(rows[i].customerId, rows[i].recency, rows[i].frequency, rows[i].monetary, ClusterSegment(rows[i].cluster)))
  }

  datatype ProfilingOutcome = ProfilingOutcome(profiles: map<string, Profile>, table: seq<SegmentedRow>)

  /** The profiling stage: nothing when the cluster file is missing; otherwise one
      profile per distinct label text and the segment table. */
  function ProfileSegments(input: Option<seq<ClusteredRow>>): (r: Option<ProfilingOutcome>)
    ensures r.None? <==> input.None?
    ensures r.Some? ==> r.value.profiles.Keys == set c | c in input.value :: DecimalText(c.cluster)
    ensures r.Some? ==> |r.value.table| == |input.value|
    ensures r.Some? ==> r.value.table == SegmentTable(input.value)
    ensures r.Some? ==> r.value.profiles == Profiles(AsText(input.value))
  {
    if input.None? then None
    else
      var rows := AsText(input.value);
      assert Labels(rows) == set c | c in input.value :: DecimalText(c.cluster) by {
        forall c | c in input.value ensures DecimalText(c.cluster) in Labels(rows) {
          var i :| 0 <= i < |input.value| && input.value[i] == c;
          assert rows[i] in rows;
        }
      }
      Some(ProfilingOutcome(Profiles(rows), SegmentTable(input.value)))
  }
}

=== FILE: wrappers.dfy ===
/** Optional values, used for missing files, unmatched labels and empty results. */
module Wrappers {

  datatype Option<+T> = None | Some(value: T)
}
